=== FILE: README.md ===
# Multi-tenant organization service: a Dafny model

This project models the core of a small multi-tenant organization service. Each organization
(tenant) has the following:

- a record in a master store;
- exactly one admin account whose record refers back to it by name;
- a document collection of its own, named by sanitizing the organization name.

The model covers five pieces:

- **Collection names** (`app/utils/helpers.py`). This is the sanitizer that turns an
  organization name into a collection name, plus the validator for collection names.
- **Master store** (`app/repositories/master_repo.py`). Organization and admin records are
  looked up by name, ignoring case, and the first match wins.
- **Tenant collections** (`app/repositories/org_repo.py`). These are created, checked, migrated,
  dropped, counted and listed. The failures the repository swallows are modelled too.
- **Service** (`app/services/org_service.py`). This is the tenant lifecycle:
  - create, with compensation when a write fails;
  - get;
  - update, which covers a rename with collection migration, an email change and a password
    change;
  - delete;
  - admin authentication.
- **Routes** (`app/api/routes/org_routes.py`). These cover `Authorization: Bearer` header
  parsing, the cross-tenant access check, and how service outcomes map to HTTP status codes.

The project is written in a functional style:

- Every operation is a pure function.
- An operation that writes takes the store `State(master, collections)` and returns a `Step`: a
  result plus the store it leaves behind.
- The database calls that can fail are chosen by a `Faults` value. A failure is either an
  exception that propagates, or one the repository catches and turns into `False`.
- Fresh admin ids, timestamps and token verification are parameters.

Tenant collections live in the same database as the master store: `get_org_database`
(app/db/mongo.py:27-30) returns the one configured database whatever collection name it is given.
The model therefore keeps one map of tenant collections beside the master records. They never
clash, because every sanitized name starts with `org_` (`Helpers.Sanitize`), and the master
collections are called `organizations` and `admins`.

Modules, one per file:

| module | file | role |
|---|---|---|
| `Wrappers` | `wrappers.dfy` | `Option` and `Result` |
| `Text` | `text.dfy` | ASCII `lower`, `strip` and whitespace `split` |
| `Seqs` | `seqs.dfy` | first-match search and removal at an index |
| `Passwords` | `passwords.dfy` | an ideal password hash: a password verifies against `hash(q)` exactly when it equals `q` |
| `Helpers` | `helpers.dfy` | the sanitizer and the validator |
| `MasterRepo` | `master_repo.dfy` | the master store: organization and admin records |
| `OrgRepo` | `org_repo.dfy` | the tenant collections: `map<string, seq<Doc>>` |
| `OrgService` | `org_service.dfy` | the five service operations |
| `Lifecycle` | `lifecycle.dfy` | the store invariant and the properties that span several operations |
| `OrgRoutes` | `org_routes.dfy` | the four HTTP handlers and their dependency |

`Lifecycle.Inv` is the store invariant. It holds when all of the following are true:

- the i-th admin belongs to the i-th organization: same admin id, same email, and the admin's
  organization name equals the organization's name;
- organization names are distinct ignoring case;
- admin ids are distinct;
- collection names are distinct;
- every organization's collection exists;
- document ids within a collection are unique.

Delete preserves `Inv` with no further condition, whatever fails. Create preserves it whatever
fails, provided the new admin's id is fresh. Update preserves it under the two conditions the code
itself never checks. Three lemmas show, for every store meeting their conditions, how an update
breaks the invariant when those conditions fail. One of them is also shown on a concrete store
(`Lifecycle.NestedFailureBreaksInvExample`). These are the hazards of the rename path as the code
has them; the model does not fix them.

## Model

| member | source | states |
|---|---|---|
| Text.Lower | app/utils/helpers.py:17 | `str.lower` on ASCII: same length, and each character is lowered on its own |
| Text.Strip | app/utils/helpers.py:17 | the result starts and ends with a kept character |
| Text.StripIsSlice | app/utils/helpers.py:26 | `strip` returns a contiguous slice of its input, and everything cut off on either side was a dropped character |
| Text.Words | app/api/routes/org_routes.py:24 | `str.split()` gives only non-empty words without whitespace; `WordsAppend` and its companions fix which words those are |
| Text.WordsOfPair | app/api/routes/org_routes.py:24-25 | `"a b".split()` is `[a, b]` for two words `a` and `b` |
| Text.WordsOfBlank | app/api/routes/org_routes.py:24 | an all-whitespace header splits into no words |
| Text.WordsSkipSpace | app/api/routes/org_routes.py:24 | a leading whitespace character does not change the split |
| Text.WordsOfWord | app/api/routes/org_routes.py:24 | one run of non-whitespace characters splits into exactly that one word |
| Text.WordsOfWordThen | app/api/routes/org_routes.py:24 | a word followed by whitespace or nothing is split off as the first word |
| Text.WordsAppend | app/api/routes/org_routes.py:24 | at a whitespace boundary the split of `x + y` is the split of `x` followed by the split of `y`; with the three lemmas above, every maximal run of non-whitespace becomes one word, in order |
| Helpers.ReplaceInvalid | app/utils/helpers.py:20 | every character outside `[a-z0-9]` becomes `_`, and every other character is kept, at the same position |
| Helpers.CollapseUnderscores | app/utils/helpers.py:23 | no `__` remains, the first and last characters are kept, and the result is no longer; `CollapseMergesRun` and `CollapseKeepsOthers` fix the rest |
| Helpers.CollapseKeepsOthers | app/utils/helpers.py:23 | collapsing keeps exactly the non-underscore characters, in order |
| Helpers.CollapseFixesNoDouble | app/utils/helpers.py:23 | a string without `__` is unchanged by collapsing |
| Helpers.CollapseMergesRun | app/utils/helpers.py:23 | `__` collapses exactly like `_` wherever it stands, so a run of underscores becomes one underscore and never disappears |
| Helpers.Stem | app/utils/helpers.py:17-26 | the text before the prefix step is in `[a-z0-9_]`, has no `__`, and neither starts nor ends with `_` |
| Helpers.WithOrgPrefix | app/utils/helpers.py:29-34 | the digit branch and the `org_` branch together prefix `org_` exactly once, and only when it is missing |
| Helpers.Sanitize | app/utils/helpers.py:5-40 | every output starts with `org_`, uses only `[a-z0-9_]`, has no `__`, and ends with `_` only when it is exactly `org_` |
| Helpers.ValidateCollectionName | app/utils/helpers.py:43-56 | accepted iff non-empty, not starting with `system.`, and free of `$` |
| Helpers.SanitizeIsValid | app/utils/helpers.py:43-56 | every sanitized name passes the validator, so the service's defensive check never rejects |
| Helpers.SanitizeIgnoresCase | app/utils/helpers.py:17 | two names that are equal ignoring case sanitize alike |
| Helpers.LengthGuardNeverFires | app/utils/helpers.py:37-38 | the string reaching the length guard is already at least 4 long, so the guard never adds a prefix |
| Helpers.StemEmptyIff | app/utils/helpers.py:17-26 | the cleaned stem is empty iff the lowered name has no `[a-z0-9]` character |
| Helpers.BarePrefixIffNoAlnum | app/utils/helpers.py:26-34 | the output is exactly `org_` iff the lowered name has no `[a-z0-9]` character |
| Helpers.SanitizePunctuation | app/utils/helpers.py:26-34 | `"!!!"` sanitizes to `org_` |
| Helpers.PrefixOnce | app/utils/helpers.py:29-34 | a stem that starts with a digit gets a single `org_`, and a stem that already starts with `org_` gets none |
| Helpers.SanitizeLeadingDigit | app/utils/helpers.py:29-34 | `"123abc"` sanitizes to `org_123abc`, not `org_org_123abc` |
| Helpers.SanitizeFixes | app/utils/helpers.py:17-40 | a well-formed collection name other than `org_` is a fixed point |
| Helpers.SanitizeIdempotent | app/utils/helpers.py:17-40 | sanitizing twice equals sanitizing once for every output except `org_` |
| Helpers.SanitizeBarePrefix | app/utils/helpers.py:17-40 | the one exception: `org_` sanitizes to `org_org` |
| Helpers.SanitizeImage | app/utils/helpers.py:5-40 | every well-formed stem is reached: `org_` followed by it is the output for some name |
| Passwords.VerifyHashed | app/services/org_service.py:179 | a password verifies against the stored hash of `q` iff it is `q` |
| Seqs.FirstIndex | app/repositories/master_repo.py:24-32 | the first index satisfying the filter, or none when no element does |
| Seqs.RemoveAt | app/repositories/master_repo.py:57-63 | removing one element keeps the others in order |
| MasterRepo.OrgIndex | app/repositories/master_repo.py:24-32 | the first organization whose name equals the query ignoring case, or none |
| MasterRepo.FindOrganizationByName | app/repositories/master_repo.py:24-32 | finds nothing iff no organization's name matches ignoring case; otherwise a stored matching record |
| MasterRepo.CreateOrganization | app/repositories/master_repo.py:35-41 | appends exactly the given record with its `created_at` set, and leaves admins alone |
| MasterRepo.ApplyOrgPatch | app/repositories/master_repo.py:44-54 | a `$set` changes the given fields and keeps `created_at` and `admin_id` |
| MasterRepo.UpdateOrganization | app/repositories/master_repo.py:44-54 | returns none with the store unchanged when nothing matches; otherwise patches only the first match |
| MasterRepo.DeleteOrganization | app/repositories/master_repo.py:57-63 | true iff some name matches; removes exactly that first match and nothing else |
| MasterRepo.CreateAdmin | app/repositories/master_repo.py:66-71 | appends exactly the given admin and leaves organizations alone |
| MasterRepo.AdminIndexByEmail | app/repositories/master_repo.py:74-80 | the first admin whose stored email equals the lowered query exactly |
| MasterRepo.FindAdminByEmail | app/repositories/master_repo.py:74-80 | finds nothing iff no stored email equals the lowered query; with duplicates the first wins |
| MasterRepo.AdminIndexByOrg | app/repositories/master_repo.py:83-91 | the first admin whose organization name matches ignoring case |
| MasterRepo.FindAdminByOrg | app/repositories/master_repo.py:83-91 | finds nothing iff no admin's organization name matches ignoring case |
| MasterRepo.AdminIndexById | app/repositories/master_repo.py:94-104 | the first admin with exactly this id |
| MasterRepo.ApplyAdminPatch | app/repositories/master_repo.py:94-104 | a `$set` changes only the given fields and keeps `_id` and `created_at` |
| MasterRepo.UpdateAdmin | app/repositories/master_repo.py:94-104 | matches by id only; returns none with the store unchanged for an unknown id |
| MasterRepo.DeleteAdminByOrg | app/repositories/master_repo.py:107-113 | true iff some admin's organization matches; removes exactly the first such admin |
| MasterRepo.ListAllOrganizations | app/repositories/master_repo.py:116-124 | every organization record, in store order |
| MasterRepo.FoundIsListed | app/repositories/master_repo.py:24-124 | whatever a lookup by name returns is among the listed organizations |
| MasterRepo.CreatedOrganizationIsFound | app/repositories/master_repo.py:24-41 | a record created under a free name is then found by that name |
| MasterRepo.DeleteRemovesFound | app/repositories/master_repo.py:24-63 | deleting a found name reports true and removes exactly the record the lookup returned |
| MasterRepo.DeleteTwice | app/repositories/master_repo.py:57-63 | with names distinct ignoring case, a second delete of the same name removes nothing |
| OrgRepo.CreateCollection | app/repositories/org_repo.py:9-21 | reports success iff neither call raises. On success the name exists and keeps its documents, and a new collection is empty. When the insert raises nothing changes. When the delete raises, the temporary document stays (unless its id is already there). Other collections are always kept |
| OrgRepo.CreatedCollectionExists | app/repositories/org_repo.py:9-21 | a newly created collection exists and counts zero documents |
| OrgRepo.FailedCreateLeavesTemp | app/repositories/org_repo.py:14-21 | when the temporary delete raises, `False` is reported, yet the new collection exists and counts one document |
| OrgRepo.CollectionExists | app/repositories/org_repo.py:24-31 | exactly membership in the collection map |
| OrgRepo.InsertMany | app/repositories/org_repo.py:59-61 | an ordered `insert_many` appends the documents before the first one whose `_id` is already in the target or earlier in the batch, stops there, and reports success iff it appended all |
| OrgRepo.InsertManyDisjoint | app/repositories/org_repo.py:59-61 | when no document id clashes, every document is appended in order |
| OrgRepo.InsertManyKeepsUnique | app/repositories/org_repo.py:59-61 | an insert never produces duplicate ids in the target |
| OrgRepo.MigrateCollection | app/repositories/org_repo.py:34-66 | covers each case of the migration, including a nested create that leaves its temporary document; it never touches any collection except the target, and it creates no name except the target |
| OrgRepo.MigrateNonEmpty | app/repositories/org_repo.py:47-63 | a non-empty source's documents are inserted into the target, and the source is kept |
| OrgRepo.MigrateIntoFresh | app/repositories/org_repo.py:47-63 | migrating a non-empty source into a fresh name copies all of its documents, in order, and keeps the source |
| OrgRepo.MigrateOntoItself | app/repositories/org_repo.py:47-66 | migrating a non-empty collection onto itself fails on duplicate ids and leaves the store as it was |
| OrgRepo.MigrationFailureKeepsSource | app/repositories/org_repo.py:34-66 | a reported failure leaves the source collection untouched |
| OrgRepo.DropCollection | app/repositories/org_repo.py:69-76 | on success the name is gone and every other collection is kept |
| OrgRepo.DropIdempotent | app/repositories/org_repo.py:69-76 | after a drop the name does not exist, and dropping it again succeeds without changing anything |
| OrgRepo.GetCollectionDocumentCount | app/repositories/org_repo.py:79-86 | the number of documents, and 0 for an absent collection |
| OrgRepo.ListCollections | app/repositories/org_repo.py:89-97 | exactly the existing names that start with `org_`; a swallowed failure lists none |
| OrgRepo.CreateCollectionLists | app/repositories/org_repo.py:9-97 | a successful creation adds the new name to the listing exactly when it starts with `org_`, and changes nothing else in it |
| OrgRepo.DropCollectionUnlists | app/repositories/org_repo.py:69-97 | a successful drop removes the dropped name from the listing and nothing else |
| OrgService.Compensate | app/services/org_service.py:56-63 | the compensation never adds records |
| OrgService.CreateWrites | app/services/org_service.py:50-64 | succeeds iff no write fails; on success exactly one organization and one admin are appended with the given fields, and the collection is created empty; on failure the error is not a `ValueError`, and the collections change only when the temporary delete raised, by the collection holding the temporary document |
| OrgService.CreateOrganization | app/services/org_service.py:15-64 | a name taken ignoring case, an invalid collection name, or an existing collection each fail with the store unchanged; succeeds iff the name is free, the collection is absent and no write fails; success appends one paired record each and creates the empty collection `sanitize(name)`; a failure changes the collections only by leaving the temporary document |
| OrgService.GetOrganization | app/services/org_service.py:67-72 | fails with `NotFound` iff no organization matches ignoring case; otherwise returns a stored matching record |
| OrgService.OrgPatchFor | app/services/org_service.py:114-120 | the organization patch is empty iff there is no rename and no email |
| OrgService.AdminPatchFor | app/services/org_service.py:114-126 | the admin patch is empty iff there is no rename, no email and no password |
| OrgService.MoveCollection | app/services/org_service.py:98-111 | the old collection is dropped only after a migration that reported success; a failed migration leaves its own result |
| OrgService.UpdateRecords | app/services/org_service.py:128-149 | the record writes never touch collections or the number of records, and fail only with the three write errors |
| OrgService.UpdateOrganization | app/services/org_service.py:75-149 | `NotFound` iff the name is unknown; `AlreadyExists` iff it renames onto a name another organization holds; both leave the store unchanged; a failed migration writes no metadata; without a rename the collections are unchanged |
| OrgService.UpdateInto | app/services/org_service.py:75-149 | as `UpdateOrganization`, with the rename's target collection given as a parameter |
| OrgService.DeleteOrganization | app/services/org_service.py:152-170 | an unknown name is `NotFound` with the store unchanged; otherwise it reports `True`, the organizations lose exactly the first match, and the organization's collection is gone unless the drop failed |
| OrgService.AuthenticateAdmin | app/services/org_service.py:173-192 | none iff the email is unknown, the password is wrong or the organization is missing; otherwise that admin's id, email and organization name, with the record that looking up that organization name returns |
| Lifecycle.AdminIndexByOrgAgrees | app/repositories/master_repo.py:24-32 | under the invariant, the admin found by organization sits at the organization's own index |
| Lifecycle.OneAdminPerOrg | app/services/org_service.py:50-52 | under the invariant, each organization has exactly one admin referring back to it |
| Lifecycle.AdminIndexByIdOfOrg | app/services/org_service.py:136-138 | under the invariant, an organization's `admin_id` finds its own admin |
| Lifecycle.OnlyMatchIsIndex | app/repositories/master_repo.py:24-32 | with distinct names, a matching record is the one found |
| Lifecycle.DeleteRemovesPair | app/services/org_service.py:152-170 | deleting an existing organization removes its organization and admin records at the same index, and drops its collection |
| Lifecycle.DeletePreservesInv | app/services/org_service.py:152-170 | delete preserves the store invariant, whatever fails |
| Lifecycle.DeleteThenNotFound | app/services/org_service.py:67-72 | after a delete, both `get` and a second delete of the name raise `NotFound` |
| Lifecycle.DeleteThenUnlisted | app/services/org_service.py:152-170 | after deleting a found organization with a drop that does not fail, its collection leaves the listing and nothing else does, and the organization listing loses exactly the found record |
| Lifecycle.ListedAreFound | app/repositories/master_repo.py:24-124 | with distinct names, every listed organization is what a lookup by its own name returns |
| Lifecycle.CompensatePair | app/services/org_service.py:56-63 | the compensation removes a just-appended organization and admin, and restores the master store |
| Lifecycle.CompensateAdmin | app/services/org_service.py:61-63 | the compensation removes a just-appended admin |
| Lifecycle.CompensateNothing | app/services/org_service.py:56-63 | with no records for the name, the compensation changes nothing, so running it twice is harmless |
| Lifecycle.CreateRollsBack | app/services/org_service.py:50-64 | when no admin already refers to the name, a failed create restores the master store; unless the temporary delete raised, the whole store is as it was |
| Lifecycle.CompensateWithOrphan | app/services/org_service.py:56-63 | with one orphan admin already referring to the name, one compensation pass keeps the appended admin, and a second pass removes it too |
| Lifecycle.CreateFailureRemovesOrphan | app/services/org_service.py:50-64 | with one orphan admin for the name, a failed collection creation runs the compensation twice: both the orphan and the new admin are gone, and the organizations are as before |
| Lifecycle.NoAdminOfFreeName | app/services/org_service.py:16-18 | under the invariant, a name that no organization has is one that no admin refers to |
| Lifecycle.AppendPairKeepsInv | app/services/org_service.py:50-58 | appending a paired organization and admin with a fresh collection keeps the invariant |
| Lifecycle.CreatePreservesInv | app/services/org_service.py:15-64 | create preserves the store invariant whatever fails, provided the new admin id differs from every stored one |
| Lifecycle.CreateThenGet | app/services/org_service.py:15-72 | after a create, `get` finds it. Its admin has the same `admin_id`, both emails are lowered, the back-reference is the name, and its collection is `sanitize(name)` and holds zero documents |
| Lifecycle.CreateThenListed | app/services/org_service.py:15-64 | after a successful create, the collection listing gains exactly `sanitize(name)`, and the organization listing gains exactly the new record at the end |
| Lifecycle.CreateFreeNameThenGet | app/services/org_service.py:15-72 | a name no organization has, whose collection is absent, is created when no write fails, and `get` then returns the new record with its empty collection |
| Lifecycle.CreateBlockedByLeftover | app/services/org_service.py:26-64 | a create whose temporary delete raises fails and rolls back its records but leaves the collection, so every later create of the name fails with `CollectionAlreadyExists` |
| Lifecycle.UpdateRecordsPatch | app/services/org_service.py:128-149 | under the invariant, the writes patch the organization and its admin at one index and re-read the patched organization |
| Lifecycle.RefreshFindsPatched | app/services/org_service.py:143-147 | the re-read under the final name finds the patched organization |
| Lifecycle.PatchedMasterInv | app/services/org_service.py:114-140 | patching a pair with the same name and email keeps the master invariant, when a new name is free |
| Lifecycle.MoveKeepsCollections | app/services/org_service.py:98-111 | a move onto a collection no organization uses keeps every other organization's collection, and keeps document ids unique |
| Lifecycle.AppendFreshKeepsUnique | app/repositories/org_repo.py:17-18 | appending a document whose id is new keeps the ids unique |
| Lifecycle.UpdateIntoPreservesInv | app/services/org_service.py:75-149 | update preserves the invariant when the rename target is free and migration cannot lose the new collection |
| Lifecycle.UpdatePreservesInv | app/services/org_service.py:75-149 | the same, for the target `sanitize(new_name)` |
| Lifecycle.UpdateLands | app/services/org_service.py:75-149 | after a successful move, update returns the patched record and leaves exactly the patched master store |
| Lifecycle.UpdateWithoutRename | app/services/org_service.py:119-140 | without a rename, update succeeds and keeps the name, the collection and the `admin_id`. A new email is lowered on both records, a new password replaces the hash, and other records are untouched |
| Lifecycle.RenamedFoundOnlyUnderNewName | app/services/org_service.py:143-147 | after a rename the organization is found under the new name and no longer under the old one |
| Lifecycle.RenameIntoMovesData | app/services/org_service.py:91-126 | a rename into a fresh collection sets the name, the collection and the admin's back-reference; the documents move and the old collection is dropped |
| Lifecycle.RenameMovesData | app/services/org_service.py:91-147 | a rename moves data to `sanitize(new_name)`; `get` finds the organization under the new name and raises `NotFound` under the old one |
| Lifecycle.MigrationFailureKeepsSourceInto | app/services/org_service.py:98-108 | a failed migration writes no metadata and leaves the old collection untouched |
| Lifecycle.MigrationFailureKeepsOldCollection | app/services/org_service.py:98-108 | the same, for the target `sanitize(new_name)` |
| Lifecycle.LoginAfterPasswordSwap | app/services/org_service.py:173-192 | once only the admin's hash has changed, the new password logs in as the same admin and the old one fails |
| Lifecycle.PasswordChangeTakesEffect | app/services/org_service.py:122-140 | after a password update, authentication with the new password succeeds as the same admin, and with the old one it fails |
| Lifecycle.MoveOntoExisting | app/services/org_service.py:98-111 | a move onto an existing collection merges the documents into it and drops the source |
| Lifecycle.RenameOntoTakenCollection | app/services/org_service.py:91-116 | a rename whose sanitized name is another organization's collection succeeds: both organizations then share it, and the documents are merged |
| Lifecycle.MoveOntoItself | app/repositories/org_repo.py:53-56 | moving a collection onto itself fails when it holds documents, and drops it when it is empty |
| Lifecycle.RenameOntoOwnCollection | app/services/org_service.py:98-111 | a rename whose sanitized name equals the current collection fails when the collection holds documents; when it is empty, it succeeds and leaves the organization pointing at nothing |
| Lifecycle.MoveFromMissing | app/repositories/org_repo.py:43-44 | migrating from an absent collection reports success and changes nothing |
| Lifecycle.RenameFromMissingCollection | app/services/org_service.py:98-126 | renaming an organization whose collection is absent succeeds, and the new collection is never created |
| Lifecycle.RenameLosesCollectionOnNestedFailure | app/repositories/org_repo.py:53-56 | when the nested create fails while an empty collection is being migrated, the rename still succeeds; the old collection is dropped and the new one never exists |
| Lifecycle.NestedFailureBreaksInvExample | app/services/org_service.py:91-111 | on a concrete store where `Acme` has an empty collection, renaming it to `123abc` while the nested create fails succeeds, and leaves a store that breaks the invariant, although the invariant held before |
| OrgRoutes.GetCurrentAdmin | app/api/routes/org_routes.py:17-44 | 401 for a missing header, a header that is not two words, a scheme other than `bearer` in any case, or an absent or empty payload; otherwise the token's claims |
| OrgRoutes.BearerHeaderAccepted | app/api/routes/org_routes.py:24-44 | `<scheme> <token>` with any case of `bearer` hands exactly the token to the verifier |
| OrgRoutes.WrongWordCountRefused | app/api/routes/org_routes.py:24-35 | a header that does not split into two words is refused with 401 |
| OrgRoutes.VerifyOrgAccess | app/api/routes/org_routes.py:47-57 | passes iff the token's organization equals the requested name ignoring case; otherwise 403 |
| OrgRoutes.AccessFollowsTokenOrg | app/api/routes/org_routes.py:47-57 | a token opens every case spelling of its own organization and no other name |
| OrgRoutes.MissingClaimForbidden | app/api/routes/org_routes.py:48-55 | a token without an organization claim opens no non-empty name |
| OrgRoutes.CreateReply | app/api/routes/org_routes.py:83-92 | 201 iff created, 400 iff a `ValueError`, and 500 iff another error |
| OrgRoutes.CreateRoute | app/api/routes/org_routes.py:60-92 | answers 201, 400 or 500; 201 iff the name is free, its collection absent and no write fails; a taken name is 400 with the store unchanged, and every 400 leaves the store unchanged |
| OrgRoutes.CreateRouteThenGet | app/api/routes/org_routes.py:60-120 | with no fault, creating under a free name answers 201 and a following `get` answers 200 with the same record |
| OrgRoutes.GetRoute | app/api/routes/org_routes.py:95-120 | 200 with the record iff found, and 404 iff not found |
| OrgRoutes.Guard | app/api/routes/org_routes.py:126-129 | passes iff the token is valid and names the requested organization; refusals are 401 or 403, and 403 only with a valid token |
| OrgRoutes.UpdateReply | app/api/routes/org_routes.py:152-163 | 200 iff updated, 400 iff a `ValueError`, and 500 iff another error |
| OrgRoutes.UpdateRoute | app/api/routes/org_routes.py:123-163 | answers 200, 400, 401, 403 or 500; 401 or 403 iff the guard refuses; 400, 401 and 403 leave the store unchanged |
| OrgRoutes.UpdateRouteRefusals | app/api/routes/org_routes.py:129-163 | once access is granted, an unknown organization and a new name another organization holds are both 400 with the store unchanged |
| OrgRoutes.DeleteReply | app/api/routes/org_routes.py:174-196 | 200 with the "deleted successfully" message iff deleted; 404 for `False` or a `ValueError`; 500 otherwise |
| OrgRoutes.DeleteRoute | app/api/routes/org_routes.py:166-196 | answers 200, 401, 403, 404 or 500; 401 or 403 iff the guard refuses, with the store unchanged; once access is granted, an unknown organization is 404 with the store unchanged |
| OrgRoutes.CrossTenantRefused | app/api/routes/org_routes.py:129-172 | a valid token for another organization gets 403 on update and delete, and the store is unchanged |
| OrgRoutes.DeleteNeverReportsNotDeleted | app/api/routes/org_routes.py:176-180 | the service never reports a found organization as not deleted, so this 404 cannot occur |
| OrgRoutes.DeletedThenGetIs404 | app/api/routes/org_routes.py:95-196 | under the store invariant, once delete answers 200, `get` of the same name answers 404 |

## Left out

- Unicode: `lower()`, `strip()` and `split()` are modelled on ASCII only. Names are ASCII strings, and `Text.IsSpace` is the ASCII whitespace set.
- MongoDB `$regex` matching: names are interpolated unescaped into `^name$` with the `i` option. The model restricts names to printable ASCII without regex metacharacters, and then matching is ASCII case-insensitive equality.
- Concurrency: every operation is one atomic step. The race between the duplicate-name check and the inserts in create is not modelled.
- OrgRepo.CreateCollection: `delete_one({"_temp": True})` deletes the first document with that field. The model assumes it is the one just inserted, and it does not model a `_temp` field on tenant documents.
- Exceptions from Motor are not modelled in detail. Where one can arise, and whether it propagates or is swallowed, is chosen by `OrgService.Faults`:
  - an insert into the master store raises;
  - inside `create_collection`, the insert of the temporary document raises (nothing is written), or the delete after it raises (the temporary document stays); either way it returns `False`;
  - `migrate_collection` raises and returns `False`;
  - the nested `create_collection` inside `migrate_collection` fails in either of those two ways;
  - `drop_collection` returns `False`.
- Exceptions are not modelled for the rest: `collection_exists`, `find_*`, `update_*`, `delete_*` and the count. A false result from `OrgRepo.CollectionExists` on a database error is therefore not modelled.
- `ObjectId` generation and `datetime.utcnow()` are parameters. Timestamps are opaque.
- Duplicate admin ids are assumed away rather than modelled as a rejected insert. `MasterRepo.CreateAdmin` appends even when the id is already stored, whereas `insert_one` with a clashing `_id` would raise. `Lifecycle.CreatePreservesInv` therefore requires a fresh admin id, which `ObjectId` generation supplies in practice.
- Password hashing and JWT encoding and decoding are not part of this model. The hash is an ideal injective value (`Passwords`), and token verification is an oracle from the token text to an optional claims map.
- Claims are modelled as text. A non-string `organization_name` claim would make `.lower()` raise, and that path is not modelled.
- The route layer keeps only status codes, the success messages, and which error caused a refusal. The `detail` strings of refusals and the response-body schema are left out.
- The login route in `app/api/routes/auth_routes.py` is a thin wrapper around `authenticate_admin`. It is not part of this model.
- The request schemas in `app/models/schemas.py` are not part of this model. Their length and email-format limits are not imposed.
- Lifecycle.CreateRollsBack: when the temporary delete raises, it promises only that the master store is restored, because the collection stays behind (`Lifecycle.CreateBlockedByLeftover`).
- Lifecycle.UpdatePreservesInv: requires that the sanitized new name is no organization's collection. It also requires that the nested collection creation inside the migration does not fail. The code checks neither of these. Lifecycle.RenameOntoTakenCollection, Lifecycle.RenameOntoOwnCollection and Lifecycle.RenameLosesCollectionOnNestedFailure show what happens without them.
- The database, the FastAPI wiring, the configuration and the command-line scripts are outside the modelled core.

=== FILE: helpers.dfy ===
/**
  The collection-name sanitizer and validator of `app/utils/helpers.py`.

  `Sanitize` derives a tenant's storage-collection name from its display name; the lemmas
  below pin down its output alphabet, its `org_` prefix, its exact fixed points, and that
  every output passes `ValidateCollectionName`.
 */
module Helpers {
  import opened Text

  /** `[a-z0-9]`. */
  predicate IsLowerAlnum(c: char) {
    'a' <= c <= 'z' || '0' <= c <= '9'
  }

  /** `[a-z0-9_]`, the characters a sanitized name is made of. */
  predicate InAlphabet(c: char) {
    IsLowerAlnum(c) || c == '_'
  }

  predicate IsUnderscore(c: char) {
    c == '_'
  }

  predicate AllInAlphabet(s: string) {
    forall i | 0 <= i < |s| :: InAlphabet(s[i])
  }

  predicate HasLowerAlnum(s: string) {
    exists i | 0 <= i < |s| :: IsLowerAlnum(s[i])
  }

  predicate NoDoubleUnderscore(s: string) {
    forall i | 0 <= i < |s| - 1 :: !(s[i] == '_' && s[i + 1] == '_')
  }

  /** What steps 1-4 of the sanitizer leave: `[a-z0-9_]*`, no `__`, no `_` at either end. */
  predicate Clean(s: string) {
    && AllInAlphabet(s)
    && NoDoubleUnderscore(s)
    && (s != [] ==> s[0] != '_' && s[|s| - 1] != '_')
  }

  lemma AlphabetIsAscii(s: string)
    requires AllInAlphabet(s)
    ensures IsAscii(s)
  {
  }

  /** `re.sub(r'[^a-z0-9_]', '_', s)`: every character outside `[a-z0-9_]` becomes `_`. */
  function ReplaceInvalid(s: string): (r: string)
    ensures |r| == |s| && AllInAlphabet(r)
    ensures forall i {:trigger r[i]} | 0 <= i < |s| :: r[i] == (if IsLowerAlnum(s[i]) then s[i] else '_')
  {
    seq(|s|, i requires 0 <= i < |s| => if InAlphabet(s[i]) then s[i] else '_')
  }

  /** The characters of `s` other than `_`, in order. */
  function NonUnderscores(s: string): string {
    if s == [] then []
    else (if s[0] == '_' then [] else [s[0]]) + NonUnderscores(s[1..])
  }

  /** `re.sub(r'_+', '_', s)`: every run of underscores becomes a single one. */
  function CollapseUnderscores(s: string): (r: string)
    ensures |r| <= |s|
    ensures s != [] ==> r != [] && r[0] == s[0] && r[|r| - 1] == s[|s| - 1]
    ensures NoDoubleUnderscore(r)
    decreases |s|
  {
    if |s| == 0 then s
    else if |s| >= 2 && s[0] == '_' && s[1] == '_' then CollapseUnderscores(s[1..])
    else
      var rest := CollapseUnderscores(s[1..]);
      var r := [s[0]] + rest;
      assert forall i | 1 <= i < |r| :: r[i] == rest[i - 1];
      r
  }

  /** Collapsing only removes underscores: the other characters survive, in order. */
  lemma {:induction false} CollapseKeepsOthers(s: string)
    ensures NonUnderscores(CollapseUnderscores(s)) == NonUnderscores(s)
    decreases |s|
  {
    if |s| == 0 {
    } else if |s| >= 2 && s[0] == '_' && s[1] == '_' {
      CollapseKeepsOthers(s[1..]);
      assert NonUnderscores(s) == NonUnderscores(s[1..]);
    } else {
      var rest := CollapseUnderscores(s[1..]);
      CollapseKeepsOthers(s[1..]);
      var r := CollapseUnderscores(s);
      assert r == [s[0]] + rest;
      assert r[1..] == rest;
      assert NonUnderscores(r) == (if s[0] == '_' then [] else [s[0]]) + NonUnderscores(rest);
    }
  }

  /**
    Two adjacent underscores collapse like one, wherever they stand: with `CollapseFixesNoDouble`
    this pins collapsing down to "each maximal run of `_` becomes exactly one `_`".
   */
  lemma {:induction false} CollapseMergesRun(x: string, y: string)
    ensures CollapseUnderscores(x + "__" + y) == CollapseUnderscores(x + "_" + y)
    decreases |x|
  {
    var a, b := x + "__" + y, x + "_" + y;
    if x == [] {
      assert a[1..] == b;
    } else {
      assert a[1..] == x[1..] + "__" + y;
      assert b[1..] == x[1..] + "_" + y;
      assert a[0] == b[0] == x[0];
      assert |x| == 1 ==> a[1] == b[1] == '_';
      assert |x| >= 2 ==> a[1] == b[1] == x[1];
      CollapseMergesRun(x[1..], y);
    }
  }

  /** Collapsing introduces no new characters. */
  lemma {:induction false} CollapseKeepsAlphabet(s: string)
    requires AllInAlphabet(s)
    ensures AllInAlphabet(CollapseUnderscores(s))
    decreases |s|
  {
    if |s| == 0 {
    } else {
      CollapseKeepsAlphabet(s[1..]);
      if !(|s| >= 2 && s[0] == '_' && s[1] == '_') {
        var r := CollapseUnderscores(s);
        assert r == [s[0]] + CollapseUnderscores(s[1..]);
      }
    }
  }

  /** Text without `__` is left as it is. */
  lemma {:induction false} CollapseFixesNoDouble(s: string)
    requires NoDoubleUnderscore(s)
    ensures CollapseUnderscores(s) == s
    decreases |s|
  {
    if |s| > 0 {
      CollapseFixesNoDouble(s[1..]);
      assert [s[0]] + s[1..] == s;
    }
  }

  /** Steps 1-4, lines 17-26: lowercase and trim, replace, collapse, strip underscores. */
  function Stem(name: string): (t: string)
    ensures Clean(t)
  {
    var trimmed := Strip(Lower(name), IsSpace);
    var replaced := ReplaceInvalid(trimmed);
    var collapsed := CollapseUnderscores(replaced);
    var t := Strip(collapsed, IsUnderscore);
    CollapseKeepsAlphabet(replaced);
    StemClean(collapsed);
    t
  }

  lemma {:induction false} StemClean(collapsed: string)
    requires AllInAlphabet(collapsed) && NoDoubleUnderscore(collapsed)
    ensures Clean(Strip(collapsed, IsUnderscore))
  {
    var t := Strip(collapsed, IsUnderscore);
    var k := StripIsSlice(collapsed, IsUnderscore);
    forall i | 0 <= i < |t| - 1
      ensures !(t[i] == '_' && t[i + 1] == '_')
    {
      assert t[i] == collapsed[k + i] && t[i + 1] == collapsed[k + i + 1];
    }
    forall i | 0 <= i < |t|
      ensures InAlphabet(t[i])
    {
      assert t[i] == collapsed[k + i];
    }
  }

  /** Steps 5-6, lines 28-34: put `org_` in front unless the stem already starts with it. */
  function WithOrgPrefix(t: string): (p: string)
    ensures StartsWith(p, "org_")
    ensures StartsWith(t, "org_") ==> p == t
    ensures !StartsWith(t, "org_") ==> p == "org_" + t
  {
    var s5 := if t != [] && !('a' <= t[0] <= 'z' || t[0] == '_') then "org_" + t else t;
    var s6 := if !StartsWith(s5, "org_") then "org_" + s5 else s5;
    assert StartsWith(t, "org_") ==> s5 == t;
    s6
  }

  /**
    `sanitize_organization_name`, lines 5-40. Every result is `org_` followed by a clean stem,
    so it is made of `[a-z0-9_]`, has no `__`, and ends in `_` only when it is exactly `org_`.
   */
  function Sanitize(name: AsciiString): (r: AsciiString)
    ensures StartsWith(r, "org_") && |r| >= 4
    ensures AllInAlphabet(r)
    ensures NoDoubleUnderscore(r)
    ensures r[|r| - 1] == '_' ==> r == "org_"
  {
    var t := Stem(name);
    var p := WithOrgPrefix(t);
    var r := if |p| < 4 then "org_" + p else p;
    PrefixedStemShape(t);
    assert r == p;
    AlphabetIsAscii(r);
    r
  }

  lemma {:induction false} PrefixedStemShape(t: string)
    requires Clean(t)
    ensures AllInAlphabet(WithOrgPrefix(t))
    ensures NoDoubleUnderscore(WithOrgPrefix(t))
    ensures WithOrgPrefix(t)[|WithOrgPrefix(t)| - 1] == '_' ==> WithOrgPrefix(t) == "org_"
  {
    var p := WithOrgPrefix(t);
    if StartsWith(t, "org_") {
      assert p == t;
    } else {
      assert p == "org_" + t;
      forall i | 0 <= i < |p| - 1
        ensures !(p[i] == '_' && p[i + 1] == '_')
      {
        if i >= 4 {
          assert p[i] == t[i - 4] && p[i + 1] == t[i - 3];
        }
      }
      forall i | 0 <= i < |p|
        ensures InAlphabet(p[i])
      {
        if i >= 4 {
          assert p[i] == t[i - 4];
        }
      }
    }
  }

  /** `validate_collection_name`, lines 43-56. */
  function ValidateCollectionName(name: string): (ok: bool)
    ensures ok <==> |name| > 0 && !StartsWith(name, "system.") && forall i | 0 <= i < |name| :: name[i] != '$'
  {
    if |name| == 0 then false
    else if StartsWith(name, "system.") then false
    else if '$' in name then false
    else true
  }

  // ---------------------------------------------------------------------------------------
  // Properties of the sanitizer
  // ---------------------------------------------------------------------------------------

  /** The result depends on the name only through its lowercase form. */
  lemma {:induction false} SanitizeIgnoresCase(a: AsciiString, b: AsciiString)
    requires SameIgnoringCase(a, b)
    ensures Sanitize(a) == Sanitize(b)
  {
  }

  /** Every output passes the validator, so the defensive check in the service never rejects. */
  lemma {:induction false} SanitizeIsValid(name: AsciiString)
    ensures ValidateCollectionName(Sanitize(name))
  {
    var r := Sanitize(name);
    forall i | 0 <= i < |r|
      ensures r[i] != '$'
    {
      assert InAlphabet(r[i]);
    }
    assert r[0] == "org_"[0] == 'o';
    assert "system."[0] == 's';
  }

  /** The minimum-length guard of lines 37-38 never fires: steps 1-6 already give four characters. */
  lemma {:induction false} LengthGuardNeverFires(name: AsciiString)
    ensures |WithOrgPrefix(Stem(name))| >= 4
    ensures Sanitize(name) == WithOrgPrefix(Stem(name))
  {
  }

  lemma {:induction false} NonUnderscoresEmpty(s: string)
    ensures NonUnderscores(s) == [] <==> forall i | 0 <= i < |s| :: s[i] == '_'
    decreases |s|
  {
    if |s| > 0 {
      NonUnderscoresEmpty(s[1..]);
      assert forall i | 1 <= i < |s| :: s[i] == s[1..][i - 1];
    }
  }

  /** A letter or digit of the lowercased name survives every step into the stem. */
  lemma {:induction false} StemKeepsAlnum(name: string, j: nat)
    requires j < |Lower(name)| && IsLowerAlnum(Lower(name)[j])
    ensures Stem(name) != []
  {
    var lowered := Lower(name);
    var trimmed := Strip(lowered, IsSpace);
    var replaced := ReplaceInvalid(trimmed);
    var collapsed := CollapseUnderscores(replaced);
    var k := StripIsSlice(lowered, IsSpace);
    assert !IsSpace(lowered[j]);
    assert k <= j < k + |trimmed|;
    assert trimmed[j - k] == lowered[j];
    assert replaced[j - k] != '_';
    assert NonUnderscores(collapsed) != [] by {
      CollapseKeepsOthers(replaced);
      NonUnderscoresEmpty(replaced);
    }
    NonUnderscoresEmpty(collapsed);
    var m :| 0 <= m < |collapsed| && collapsed[m] != '_';
    var k2 := StripIsSlice(collapsed, IsUnderscore);
    assert k2 <= m < k2 + |Strip(collapsed, IsUnderscore)|;
  }

  /** Without a letter or digit, every step leaves only underscores, which the last strip removes. */
  lemma {:induction false} StemOfNoAlnum(name: string)
    requires !HasLowerAlnum(Lower(name))
    ensures Stem(name) == []
  {
    var lowered := Lower(name);
    var trimmed := Strip(lowered, IsSpace);
    var replaced := ReplaceInvalid(trimmed);
    var collapsed := CollapseUnderscores(replaced);
    var k := StripIsSlice(lowered, IsSpace);
    forall i | 0 <= i < |replaced|
      ensures replaced[i] == '_'
    {
      assert trimmed[i] == lowered[k + i];
    }
    assert forall i | 0 <= i < |collapsed| :: collapsed[i] == '_' by {
      NonUnderscoresEmpty(replaced);
      CollapseKeepsOthers(replaced);
      NonUnderscoresEmpty(collapsed);
    }
    var k2 := StripIsSlice(collapsed, IsUnderscore);
  }

  /** The stem is empty exactly when the lowercased name has no letter or digit. */
  lemma {:induction false} StemEmptyIff(name: string)
    ensures Stem(name) == [] <==> !HasLowerAlnum(Lower(name))
  {
    if HasLowerAlnum(Lower(name)) {
      var j :| 0 <= j < |Lower(name)| && IsLowerAlnum(Lower(name)[j]);
      StemKeepsAlnum(name, j);
    } else {
      StemOfNoAlnum(name);
    }
  }

  /**
    Names with no `[a-z0-9]` character after lowering (`""`, `"!!!"`, `"___"`) map to exactly
    `org_`, and they are the only ones that do.
   */
  lemma {:induction false} BarePrefixIffNoAlnum(name: AsciiString)
    ensures Sanitize(name) == "org_" <==> !HasLowerAlnum(Lower(name))
  {
    StemEmptyIff(name);
    LengthGuardNeverFires(name);
    PrefixBareIff(Stem(name));
  }

  /** Prefixing a clean stem gives exactly `org_` only for the empty stem. */
  lemma {:induction false} PrefixBareIff(t: string)
    requires Clean(t)
    ensures WithOrgPrefix(t) == "org_" <==> t == []
  {
    if StartsWith(t, "org_") {
      assert t[|t| - 1] != '_';
      assert "org_"[3] == '_';
    } else {
      assert |WithOrgPrefix(t)| == 4 + |t|;
    }
  }

  /** A stem starting with a digit gets exactly one prefix; an `org_`-prefixed stem gets none. */
  lemma {:induction false} PrefixOnce(name: AsciiString)
    ensures Stem(name) != [] && '0' <= Stem(name)[0] <= '9' ==> Sanitize(name) == "org_" + Stem(name)
    ensures StartsWith(Stem(name), "org_") ==> Sanitize(name) == Stem(name)
  {
  }

  lemma LowerFixesAlphabet(s: string)
    requires AllInAlphabet(s)
    ensures Lower(s) == s
  {
  }

  lemma ReplaceFixesAlphabet(s: string)
    requires AllInAlphabet(s)
    ensures ReplaceInvalid(s) == s
  {
  }

  /** A clean `org_`-prefixed name that does not end in `_` is its own stem and its own sanitization. */
  lemma {:induction false} SanitizeFixes(o: AsciiString)
    requires AllInAlphabet(o) && NoDoubleUnderscore(o)
    requires StartsWith(o, "org_") && o[|o| - 1] != '_'
    ensures Sanitize(o) == o
  {
    assert Lower(o) == o by { LowerFixesAlphabet(o); }
    assert Strip(o, IsSpace) == o by { StripKeeps(o, IsSpace); }
    assert ReplaceInvalid(o) == o by { ReplaceFixesAlphabet(o); }
    assert CollapseUnderscores(o) == o by { CollapseFixesNoDouble(o); }
    assert Strip(o, IsUnderscore) == o by { StripKeeps(o, IsUnderscore); }
    assert Stem(o) == o;
  }

  /** Sanitizing is idempotent on every output except `org_` itself. */
  lemma {:induction false} SanitizeIdempotent(name: AsciiString)
    ensures Sanitize(name) != "org_" ==> Sanitize(Sanitize(name)) == Sanitize(name)
  {
    var o := Sanitize(name);
    if o != "org_" {
      SanitizeFixes(o);
    }
  }

  /** On text already in the alphabet and without `__`, only the final underscore strip acts. */
  lemma {:induction false} StemOfAlphabet(o: string)
    requires AllInAlphabet(o) && NoDoubleUnderscore(o)
    ensures Stem(o) == Strip(o, IsUnderscore)
  {
    var lowered := Lower(o);
    assert lowered == o by { LowerFixesAlphabet(o); }
    var trimmed := Strip(lowered, IsSpace);
    assert trimmed == o by {
      if o != [] {
        assert InAlphabet(o[0]) && InAlphabet(o[|o| - 1]);
      }
      StripKeeps(o, IsSpace);
    }
    var replaced := ReplaceInvalid(trimmed);
    assert replaced == o by { ReplaceFixesAlphabet(o); }
    var collapsed := CollapseUnderscores(replaced);
    assert collapsed == o by { CollapseFixesNoDouble(o); }
  }

  lemma StripOfBarePrefix(o: string)
    requires o == "org_"
    ensures Strip(o, IsUnderscore) == "org"
  {
    assert StripLeft(o, IsUnderscore) == o;
    assert StripRight(o, IsUnderscore) == "org";
  }

  lemma StemOfBarePrefix(o: string)
    requires o == "org_"
    ensures Stem(o) == "org"
  {
    StemOfAlphabet(o);
    StripOfBarePrefix(o);
  }

  lemma PrefixOfOrg(t: string)
    requires t == "org"
    ensures WithOrgPrefix(t) == "org_org"
  {
    assert !StartsWith(t, "org_");
  }

  lemma SanitizeOfStemOrg(o: AsciiString)
    requires Stem(o) == "org"
    ensures Sanitize(o) == "org_org"
  {
    PrefixOfOrg(Stem(o));
  }

  /** The one exception to idempotence: `org_` strips to `org` and is prefixed again. */
  lemma SanitizeBarePrefix(o: AsciiString)
    requires o == "org_"
    ensures Sanitize(o) == "org_org"
  {
    StemOfBarePrefix(o);
    SanitizeOfStemOrg(o);
  }

  /** The outputs are exactly `org_` followed by a clean stem. */
  lemma {:induction false} SanitizeImage(t: string)
    requires Clean(t)
    ensures exists name: AsciiString :: Sanitize(name) == "org_" + t
  {
    if t == [] {
      assert Sanitize("") == "org_" + t;
    } else {
      var o := "org_" + t;
      PrefixedStemShape(t);
      assert WithOrgPrefix(t) == o || StartsWith(t, "org_");
      if StartsWith(t, "org_") {
        assert o[4..] == t;
      }
      assert NoDoubleUnderscore(o) && AllInAlphabet(o) by {
        forall i | 0 <= i < |o| - 1
          ensures !(o[i] == '_' && o[i + 1] == '_')
        {
          if i >= 4 {
            assert o[i] == t[i - 4] && o[i + 1] == t[i - 3];
          }
        }
        forall i | 0 <= i < |o|
          ensures InAlphabet(o[i])
        {
          if i >= 4 {
            assert o[i] == t[i - 4];
          }
        }
      }
      AlphabetIsAscii(o);
      SanitizeFixes(o);
    }
  }

  lemma StemOfDigits(d: string)
    requires d == "123abc"
    ensures Stem(d) == "123abc"
  {
    assert AllInAlphabet(d);
    StemOfAlphabet(d);
    StripKeeps(d, IsUnderscore);
  }

  lemma PrefixOfDigits(t: string)
    requires t == "123abc"
    ensures WithOrgPrefix(t) == "org_123abc"
  {
    assert !StartsWith(t, "org_");
  }

  lemma SanitizeOfStemDigits(d: AsciiString)
    requires Stem(d) == "123abc"
    ensures Sanitize(d) == "org_123abc"
  {
    PrefixOfDigits(Stem(d));
  }

  /** A worked example: a name starting with a digit gets a single prefix. */
  lemma SanitizeLeadingDigit(d: AsciiString)
    requires d == "123abc"
    ensures Sanitize(d) == "org_123abc"
  {
    StemOfDigits(d);
    SanitizeOfStemDigits(d);
  }

  /** A worked example: punctuation alone gives the bare prefix. */
  lemma SanitizePunctuation(s: AsciiString)
    requires s == "!!!"
    ensures Sanitize(s) == "org_"
  {
    var l := Lower(s);
    assert l[0] == '!' && l[1] == '!' && l[2] == '!';
    assert !HasLowerAlnum(l);
    BarePrefixIffNoAlnum(s);
  }
}

=== FILE: lifecycle.dfy ===
/**
  The store invariant the tenant lifecycle maintains, and the lemmas that it is preserved.

  Organizations and their admins are kept in step position by position: the admin at position
  `i` belongs to the organization at position `i`. Creation appends both, deletion removes both
  at the same position. From this follows that each organization has exactly one admin whose
  back-reference matches its name.
 */
module Lifecycle {
  import opened Wrappers
  import opened Text
  import opened Helpers
  import opened MasterRepo
  import opened OrgRepo
  import opened OrgService
  import opened Passwords
  import Seqs

  /** The admin `a` is the one recorded in organization `o`. */
  predicate Paired(o: OrgRecord, a: AdminRecord) {
    a.orgName == o.name && a.id == o.admin.adminId && a.email == o.admin.email
  }

  predicate DistinctNames(orgs: seq<OrgRecord>) {
    forall i, j | 0 <= i < j < |orgs| :: !SameIgnoringCase(orgs[i].name, orgs[j].name)
  }

  predicate DistinctAdminIds(admins: seq<AdminRecord>) {
    forall i, j | 0 <= i < j < |admins| :: admins[i].id != admins[j].id
  }

  predicate DistinctCollections(orgs: seq<OrgRecord>) {
    forall i, j | 0 <= i < j < |orgs| :: orgs[i].collection != orgs[j].collection
  }

  predicate MasterInv(m: Master) {
    && |m.orgs| == |m.admins|
    && (forall i | 0 <= i < |m.orgs| :: Paired(m.orgs[i], m.admins[i]))
    && DistinctNames(m.orgs)
    && DistinctAdminIds(m.admins)
  }

  /** Every organization's collection exists, no two share one, and `_id`s are unique in each. */
  predicate CollectionsInv(orgs: seq<OrgRecord>, cs: Collections) {
    && (forall i | 0 <= i < |orgs| :: orgs[i].collection in cs)
    && DistinctCollections(orgs)
    && (forall c | c in cs :: UniqueIds(cs[c]))
  }

  predicate Inv(s: State) {
    MasterInv(s.master) && CollectionsInv(s.master.orgs, s.collections)
  }

  // ---------------------------------------------------------------------------------------
  // Consequences of the invariant
  // ---------------------------------------------------------------------------------------

  /** Looking up an admin by organization name lands at the same position as the organization. */
  lemma AdminIndexByOrgAgrees(m: Master, name: Name)
    requires MasterInv(m)
    ensures AdminIndexByOrg(m.admins, name) == OrgIndex(m.orgs, name)
  {
    Seqs.FirstIndexAgree(m.admins, (a: AdminRecord) => SameIgnoringCase(a.orgName, name),
                         m.orgs, (o: OrgRecord) => SameIgnoringCase(o.name, name));
  }

  /** Each organization has exactly one admin whose back-reference matches its name. */
  lemma OneAdminPerOrg(m: Master, i: nat, j: nat)
    requires MasterInv(m)
    requires i < |m.orgs| && j < |m.admins|
    ensures SameIgnoringCase(m.admins[j].orgName, m.orgs[i].name) <==> i == j
  {
    if i < j {
      assert !SameIgnoringCase(m.orgs[i].name, m.orgs[j].name);
    } else if j < i {
      assert !SameIgnoringCase(m.orgs[j].name, m.orgs[i].name);
    }
  }

  /** An admin is found by identifier at the position of the organization that records it. */
  lemma AdminIndexByIdOfOrg(m: Master, i: nat)
    requires MasterInv(m) && i < |m.orgs|
    ensures AdminIndexById(m.admins, m.orgs[i].admin.adminId) == Some(i)
  {
    var id := m.orgs[i].admin.adminId;
    Seqs.FirstIndexIs(m.admins, (a: AdminRecord) => a.id == id, i);
  }

  /** With distinct names, a name matches at most at the position `OrgIndex` reports. */
  lemma OnlyMatchIsIndex(orgs: seq<OrgRecord>, name: Name, j: nat)
    requires DistinctNames(orgs)
    requires j < |orgs| && SameIgnoringCase(orgs[j].name, name)
    ensures OrgIndex(orgs, name) == Some(j)
  {
  }

  // ---------------------------------------------------------------------------------------
  // delete_organization
  // ---------------------------------------------------------------------------------------

  /** Under the invariant, deleting a found organization removes it and its admin at the same position. */
  lemma DeleteRemovesPair(s: State, name: Name, f: Faults)
    requires Inv(s)
    requires OrgIndex(s.master.orgs, name).Some?
    ensures var i := OrgIndex(s.master.orgs, name).value;
      var r := OrgService.DeleteOrganization(s, name, f);
      && r.result == Ok(true)
      && r.state.master.orgs == Seqs.RemoveAt(s.master.orgs, i)
      && r.state.master.admins == Seqs.RemoveAt(s.master.admins, i)
      && r.state.collections == DropCollection(s.collections, s.master.orgs[i].collection, f.dropFails).1
  {
    AdminIndexByOrgAgrees(s.master, name);
  }

  /** Removing an organization and its admin at the same position keeps the master store consistent. */
  lemma RemovePairKeepsMasterInv(m: Master, i: nat)
    requires MasterInv(m) && i < |m.orgs|
    ensures MasterInv(Master(Seqs.RemoveAt(m.orgs, i), Seqs.RemoveAt(m.admins, i)))
  {
    var orgs', admins' := Seqs.RemoveAt(m.orgs, i), Seqs.RemoveAt(m.admins, i);
    assert forall k | 0 <= k < |orgs'| :: orgs'[k] == m.orgs[if k < i then k else k + 1];
    assert forall k | 0 <= k < |admins'| :: admins'[k] == m.admins[if k < i then k else k + 1];
  }

  /** Removing an organization keeps the others' collections valid, when only its collection may go. */
  lemma RemoveKeepsCollectionsInv(orgs: seq<OrgRecord>, cs: Collections, cs': Collections, i: nat)
    requires CollectionsInv(orgs, cs) && i < |orgs|
    requires forall c | c in cs' :: c in cs && cs'[c] == cs[c]
    requires forall c | c in cs && c != orgs[i].collection :: c in cs'
    ensures CollectionsInv(Seqs.RemoveAt(orgs, i), cs')
  {
    var orgs' := Seqs.RemoveAt(orgs, i);
    assert forall k | 0 <= k < |orgs'| :: orgs'[k] == orgs[if k < i then k else k + 1];
    forall k | 0 <= k < |orgs'|
      ensures orgs'[k].collection in cs'
    {
      var k0 := if k < i then k else k + 1;
      assert orgs[k0].collection != orgs[i].collection;
    }
  }

  /** `delete_organization` preserves the invariant, whichever calls fail. */
  lemma DeletePreservesInv(s: State, name: Name, f: Faults)
    requires Inv(s)
    ensures Inv(OrgService.DeleteOrganization(s, name, f).state)
  {
    if OrgIndex(s.master.orgs, name).Some? {
      var i := OrgIndex(s.master.orgs, name).value;
      DeleteRemovesPair(s, name, f);
      RemovePairKeepsMasterInv(s.master, i);
      var cs' := OrgService.DeleteOrganization(s, name, f).state.collections;
      RemoveKeepsCollectionsInv(s.master.orgs, s.collections, cs', i);
    }
  }

  /** After a successful delete, `get` and a second `delete` of the same name both report NotFound. */
  lemma DeleteThenNotFound(s: State, name: Name, f: Faults, g: Faults)
    requires Inv(s)
    requires OrgIndex(s.master.orgs, name).Some?
    ensures var s' := OrgService.DeleteOrganization(s, name, f).state;
      && GetOrganization(s', name) == Err(NotFound)
      && OrgService.DeleteOrganization(s', name, g) == Step(Err(NotFound), s')
  {
    var i := OrgIndex(s.master.orgs, name).value;
    DeleteRemovesPair(s, name, f);
    var s' := OrgService.DeleteOrganization(s, name, f).state;
    var orgs, orgs' := s.master.orgs, s'.master.orgs;
    forall k | 0 <= k < |orgs'|
      ensures !SameIgnoringCase(orgs'[k].name, name)
    {
      if k < i {
        assert orgs'[k] == orgs[k];
      } else {
        assert orgs'[k] == orgs[k + 1];
        assert !SameIgnoringCase(orgs[i].name, orgs[k + 1].name);
      }
    }
  }

  // ---------------------------------------------------------------------------------------
  // create_organization
  // ---------------------------------------------------------------------------------------

  predicate NoOrgNamed(m: Master, name: Name) {
    forall j | 0 <= j < |m.orgs| :: !SameIgnoringCase(m.orgs[j].name, name)
  }

  predicate NoAdminOf(m: Master, name: Name) {
    forall j | 0 <= j < |m.admins| :: !SameIgnoringCase(m.admins[j].orgName, name)
  }

  /** The compensation finds nothing to remove when no record carries the name. */
  lemma CompensateNothing(m: Master, name: Name)
    requires NoOrgNamed(m, name) && NoAdminOf(m, name)
    ensures Compensate(m, name) == m
  {
  }

  /** The compensation removes an admin appended for the name, and nothing else. */
  lemma CompensateAdmin(m: Master, a: AdminRecord, name: Name)
    requires NoOrgNamed(m, name) && NoAdminOf(m, name)
    requires a.orgName == name
    ensures Compensate(m.(admins := m.admins + [a]), name) == m
  {
    var m1 := m.(admins := m.admins + [a]);
    Seqs.FirstIndexIs(m1.admins, (x: AdminRecord) => SameIgnoringCase(x.orgName, name), |m.admins|);
    assert (m.admins + [a])[..|m.admins|] == m.admins;
  }

  /** The compensation removes an organization and admin appended for the name, and nothing else. */
  lemma CompensatePair(m: Master, o: OrgRecord, a: AdminRecord, name: Name)
    requires NoOrgNamed(m, name) && NoAdminOf(m, name)
    requires o.name == name && a.orgName == name
    ensures Compensate(Master(m.orgs + [o], m.admins + [a]), name) == m
  {
    var m2 := Master(m.orgs + [o], m.admins + [a]);
    Seqs.FirstIndexIs(m2.orgs, (x: OrgRecord) => SameIgnoringCase(x.name, name), |m.orgs|);
    assert (m.orgs + [o])[..|m.orgs|] == m.orgs;
    CompensateAdmin(m, a, name);
  }

  /**
    With one orphan admin already referring to the name, one pass of the compensation removes the
    appended organization and the orphan (the first admin match) but keeps the appended admin; a
    second pass removes that one too.
   */
  lemma CompensateWithOrphan(m: Master, o: OrgRecord, a: AdminRecord, name: Name, i: nat)
    requires NoOrgNamed(m, name)
    requires i < |m.admins| && SameIgnoringCase(m.admins[i].orgName, name)
    requires forall j | 0 <= j < |m.admins| && j != i :: !SameIgnoringCase(m.admins[j].orgName, name)
    requires o.name == name && a.orgName == name
    ensures var m2 := Master(m.orgs + [o], m.admins + [a]);
      && Compensate(m2, name) == Master(m.orgs, Seqs.RemoveAt(m.admins, i) + [a])
      && Compensate(Compensate(m2, name), name) == Master(m.orgs, Seqs.RemoveAt(m.admins, i))
  {
    var m2 := Master(m.orgs + [o], m.admins + [a]);
    Seqs.FirstIndexIs(m2.orgs, (x: OrgRecord) => SameIgnoringCase(x.name, name), |m.orgs|);
    assert (m.orgs + [o])[..|m.orgs|] == m.orgs;
    Seqs.FirstIndexIs(m2.admins, (x: AdminRecord) => SameIgnoringCase(x.orgName, name), i);
    var kept := Seqs.RemoveAt(m.admins, i);
    assert Seqs.RemoveAt(m2.admins, i) == kept + [a];
    var m3 := Master(m.orgs, kept + [a]);
    assert Compensate(m2, name) == m3;
    forall j | 0 <= j < |kept|
      ensures !SameIgnoringCase((kept + [a])[j].orgName, name)
    {
      if j >= i {
        assert kept[j] == m.admins[j + 1];
      }
    }
    Seqs.FirstIndexIs(m3.admins, (x: AdminRecord) => SameIgnoringCase(x.orgName, name), |kept|);
    assert (kept + [a])[..|kept|] == kept;
  }

  /**
    A create that fails, at whatever step, leaves the master records as it found them, provided
    no admin already back-references the name (otherwise the compensation would remove that
    admin). The collections are restored too, except when `create_collection` left its temporary
    document behind.
   */
  lemma CreateRollsBack(s: State, name: Name, email: AsciiString, password: string,
                        adminId: string, now: Timestamp, f: Faults)
    requires NoAdminOf(s.master, name)
    ensures var r := OrgService.CreateOrganization(s, name, email, password, adminId, now, f);
      r.result.Err? ==> r.state.master == s.master
    ensures var r := OrgService.CreateOrganization(s, name, email, password, adminId, now, f);
      r.result.Err? && !f.createCollection.DeleteRaises? ==> r.state == s
  {
    if FindOrganizationByName(s.master, name).None? && ValidateCollectionName(Sanitize(name))
       && Sanitize(name) !in s.collections {
      var admin := NewAdmin(name, email, password, adminId, now);
      var org := NewOrg(name, Sanitize(name), email, adminId, now);
      if f.adminInsertFails {
        CompensateNothing(s.master, name);
      } else if f.orgInsertFails {
        CompensateAdmin(s.master, admin, name);
      } else {
        CompensatePair(s.master, org, admin, name);
        CompensateNothing(s.master, name);
      }
    }
  }

  /**
    The double compensation after a failed collection creation (lines 56-63, reached twice because
    the `RuntimeError` of line 58 is caught at line 61) matters when an orphan admin already refers
    to the name: the first pass removes the orphan, the second the admin just written, so neither
    remains and the organizations are as before.
   */
  lemma CreateFailureRemovesOrphan(s: State, name: Name, email: AsciiString, password: string,
                                   adminId: string, now: Timestamp, f: Faults, i: nat)
    requires FindOrganizationByName(s.master, name).None?
    requires Sanitize(name) !in s.collections
    requires !f.adminInsertFails && !f.orgInsertFails && f.createCollection != CreateOk
    requires i < |s.master.admins| && SameIgnoringCase(s.master.admins[i].orgName, name)
    requires forall j | 0 <= j < |s.master.admins| && j != i :: !SameIgnoringCase(s.master.admins[j].orgName, name)
    ensures var r := OrgService.CreateOrganization(s, name, email, password, adminId, now, f);
      && r.result == Err(CollectionCreateFailed)
      && r.state.master == Master(s.master.orgs, Seqs.RemoveAt(s.master.admins, i))
      && NoAdminOf(r.state.master, name)
  {
    SanitizeIsValid(name);
    var admin := NewAdmin(name, email, password, adminId, now);
    var org := NewOrg(name, Sanitize(name), email, adminId, now).(createdAt := now);
    CompensateWithOrphan(s.master, org, admin, name, i);
    var kept := Seqs.RemoveAt(s.master.admins, i);
    forall j | 0 <= j < |kept|
      ensures !SameIgnoringCase(kept[j].orgName, name)
    {
      if j >= i {
        assert kept[j] == s.master.admins[j + 1];
      }
    }
  }

  /** Under the invariant no admin back-references a name that no organization has. */
  lemma NoAdminOfFreeName(m: Master, name: Name)
    requires MasterInv(m) && NoOrgNamed(m, name)
    ensures NoAdminOf(m, name)
  {
    forall j | 0 <= j < |m.admins|
      ensures !SameIgnoringCase(m.admins[j].orgName, name)
    {
      assert Paired(m.orgs[j], m.admins[j]);
    }
  }

  /** Appending a matching organization and admin under a free name, a fresh id and a new collection keeps the invariant. */
  lemma AppendPairKeepsInv(s: State, o: OrgRecord, a: AdminRecord)
    requires Inv(s) && Paired(o, a)
    requires NoOrgNamed(s.master, o.name)
    requires forall j | 0 <= j < |s.master.admins| :: s.master.admins[j].id != a.id
    requires o.collection !in s.collections
    ensures Inv(State(Master(s.master.orgs + [o], s.master.admins + [a]), s.collections[o.collection := []]))
  {
    var orgs', admins' := s.master.orgs + [o], s.master.admins + [a];
    assert forall k | 0 <= k < |s.master.orgs| :: orgs'[k] == s.master.orgs[k];
    assert forall k | 0 <= k < |s.master.admins| :: admins'[k] == s.master.admins[k];
    assert DistinctNames(orgs') by {
      forall i, j | 0 <= i < j < |orgs'|
        ensures !SameIgnoringCase(orgs'[i].name, orgs'[j].name)
      {
        if j == |s.master.orgs| {
          assert !SameIgnoringCase(s.master.orgs[i].name, o.name);
        }
      }
    }
  }

  /** `create_organization` preserves the invariant, given a fresh admin identifier. */
  lemma CreatePreservesInv(s: State, name: Name, email: AsciiString, password: string,
                           adminId: string, now: Timestamp, f: Faults)
    requires Inv(s)
    requires forall j | 0 <= j < |s.master.admins| :: s.master.admins[j].id != adminId
    ensures Inv(OrgService.CreateOrganization(s, name, email, password, adminId, now, f).state)
  {
    var r := OrgService.CreateOrganization(s, name, email, password, adminId, now, f);
    if FindOrganizationByName(s.master, name).None? {
      NoAdminOfFreeName(s.master, name);
      CreateRollsBack(s, name, email, password, adminId, now, f);
      if r.result.Ok? {
        AppendPairKeepsInv(s, r.result.value, NewAdmin(name, email, password, adminId, now));
      }
    }
  }

  /**
    A successful create is visible: `get` returns the new record, whose admin shares its
    identifier, carries the lowercased email and points back at the name, and whose collection
    is the sanitized name, exists and is empty.
   */
  lemma CreateThenGet(s: State, name: Name, email: AsciiString, password: string,
                      adminId: string, now: Timestamp, f: Faults)
    requires OrgService.CreateOrganization(s, name, email, password, adminId, now, f).result.Ok?
    ensures var r := OrgService.CreateOrganization(s, name, email, password, adminId, now, f);
      var o := r.result.value;
      var a := r.state.master.admins[|r.state.master.admins| - 1];
      && GetOrganization(r.state, name) == Ok(o)
      && o.name == name && o.collection == Sanitize(name)
      && a.orgName == name && a.id == o.admin.adminId == adminId
      && a.email == o.admin.email == Lower(email)
      && CollectionExists(r.state.collections, o.collection)
      && GetCollectionDocumentCount(r.state.collections, o.collection) == 0
  {
    var r := OrgService.CreateOrganization(s, name, email, password, adminId, now, f);
    var orgs := r.state.master.orgs;
    Seqs.FirstIndexIs(orgs, (x: OrgRecord) => SameIgnoringCase(x.name, name), |s.master.orgs|);
  }

  /**
    A name that no organization has, whose collection does not exist yet, is created when no
    write fails, and `get` then returns the new record with its empty collection.
   */
  lemma CreateFreeNameThenGet(s: State, name: Name, email: AsciiString, password: string,
                              adminId: string, now: Timestamp, f: Faults)
    requires FindOrganizationByName(s.master, name).None?
    requires Sanitize(name) !in s.collections
    requires !f.adminInsertFails && !f.orgInsertFails && f.createCollection == CreateOk
    ensures var r := OrgService.CreateOrganization(s, name, email, password, adminId, now, f);
      && r.result.Ok?
      && GetOrganization(r.state, name) == Ok(r.result.value)
      && r.result.value.collection == Sanitize(name)
      && CollectionExists(r.state.collections, Sanitize(name))
      && GetCollectionDocumentCount(r.state.collections, Sanitize(name)) == 0
  {
    SanitizeIsValid(name);
    CreateThenGet(s, name, email, password, adminId, now, f);
  }

  /**
    When the temporary delete of `create_collection` raises, create fails and its records are
    rolled back, but the collection stays with the temporary document in it. A later create of
    the same name, with any faults, is then refused because the collection exists.
   */
  lemma CreateBlockedByLeftover(s: State, name: Name, email: AsciiString, password: string,
                                adminId: string, now: Timestamp, f: Faults,
                                adminId': string, now': Timestamp, g: Faults)
    requires NoAdminOf(s.master, name)
    requires FindOrganizationByName(s.master, name).None?
    requires Sanitize(name) !in s.collections
    requires !f.adminInsertFails && !f.orgInsertFails && f.createCollection.DeleteRaises?
    ensures var r := OrgService.CreateOrganization(s, name, email, password, adminId, now, f);
      && r.result == Err(CollectionCreateFailed)
      && r.state.master == s.master
      && r.state.collections == s.collections[Sanitize(name) := [f.createCollection.temp]]
      && OrgService.CreateOrganization(r.state, name, email, password, adminId', now', g)
           == Step(Err(CollectionAlreadyExists), r.state)
  {
    SanitizeIsValid(name);
    CreateRollsBack(s, name, email, password, adminId, now, f);
    var r := OrgService.CreateOrganization(s, name, email, password, adminId, now, f);
    assert r.state.collections != s.collections by {
      var c := Sanitize(name);
      var cs := CreateCollection(s.collections, c, f.createCollection).1;
      assert DocsOf(s.collections, c) == [];
      assert c in cs;
    }
  }

  /**
    After a successful create, `list_collections` gains exactly the new collection and
    `list_all_organizations` gains exactly the new record, at the end.
   */
  lemma CreateThenListed(s: State, name: Name, email: AsciiString, password: string,
                         adminId: string, now: Timestamp, f: Faults)
    requires OrgService.CreateOrganization(s, name, email, password, adminId, now, f).result.Ok?
    ensures var r := OrgService.CreateOrganization(s, name, email, password, adminId, now, f);
      && Sanitize(name) in ListCollections(r.state.collections, false)
      && ListCollections(r.state.collections, false) == ListCollections(s.collections, false) + {Sanitize(name)}
      && ListAllOrganizations(r.state.master) == ListAllOrganizations(s.master) + [r.result.value]
  {
    var c := Sanitize(name);
    CreateCollectionLists(s.collections, c);
    assert CreateCollection(s.collections, c, CreateOk).1 == s.collections[c := []];
  }

  /**
    After deleting a found organization with a drop that does not fail, its collection is no
    longer listed and nothing else is unlisted; the organization listing loses exactly the
    record at the found position.
   */
  lemma DeleteThenUnlisted(s: State, name: Name, f: Faults)
    requires FindOrganizationByName(s.master, name).Some? && !f.dropFails
    ensures var c := FindOrganizationByName(s.master, name).value.collection;
      var r := OrgService.DeleteOrganization(s, name, f);
      && c !in ListCollections(r.state.collections, false)
      && ListCollections(r.state.collections, false) == ListCollections(s.collections, false) - {c}
      && ListAllOrganizations(r.state.master) ==
           Seqs.RemoveAt(ListAllOrganizations(s.master), OrgIndex(s.master.orgs, name).value)
  {
    DropCollectionUnlists(s.collections, FindOrganizationByName(s.master, name).value.collection);
  }

  /** Under the invariant every listed organization is what a lookup by its own name returns. */
  lemma ListedAreFound(m: Master)
    requires DistinctNames(m.orgs)
    ensures forall o | o in ListAllOrganizations(m) :: FindOrganizationByName(m, o.name) == Some(o)
  {
    forall o | o in ListAllOrganizations(m)
      ensures FindOrganizationByName(m, o.name) == Some(o)
    {
      var j :| 0 <= j < |m.orgs| && m.orgs[j] == o;
      OnlyMatchIsIndex(m.orgs, o.name, j);
    }
  }

  // ---------------------------------------------------------------------------------------
  // update_organization
  // ---------------------------------------------------------------------------------------

  /** The master store after both patches of an update land on the organization at `i` and its admin. */
  function Patched(m: Master, i: nat, op: OrgPatch, ap: AdminPatch): Master
    requires i < |m.orgs| && i < |m.admins|
  {
    Master(m.orgs[i := ApplyOrgPatch(m.orgs[i], op)], m.admins[i := ApplyAdminPatch(m.admins[i], ap)])
  }

  /**
    Under the invariant the record writes of an update cannot fail: they patch the found
    organization and, by identifier, its own admin; a changed record is re-read and found.
   */
  lemma UpdateRecordsPatch(s: State, name: Name, newName: Option<Name>, target: string,
                           email: Option<AsciiString>, password: Option<string>)
    requires MasterInv(s.master)
    requires OrgIndex(s.master.orgs, name).Some?
    requires Renames(name, newName) ==> NoOrgNamed(s.master, newName.value)
    ensures var i := OrgIndex(s.master.orgs, name).value;
      var r := UpdateRecords(s, s.master.orgs[i], name, newName, target, email, password);
      && r.state.master == Patched(s.master, i, OrgPatchFor(name, newName, target, email), AdminPatchFor(name, newName, email, password))
      && r.result == Ok(r.state.master.orgs[i])
  {
    var i := OrgIndex(s.master.orgs, name).value;
    var op := OrgPatchFor(name, newName, target, email);
    var ap := AdminPatchFor(name, newName, email, password);
    var m2 := Patched(s.master, i, op, ap);
    var m1 := m2.(admins := s.master.admins);
    OrgStepPatches(s.master, name, op, i);
    AdminStepPatches(s.master, m1, i, ap);
    RefreshFindsPatched(s.master, i, name, newName, op, ap);
  }

  /** Line 130 patches the organization found at line 83; with no fields to set the record stays as found. */
  lemma OrgStepPatches(m: Master, name: Name, op: OrgPatch, i: nat)
    requires OrgIndex(m.orgs, name) == Some(i)
    ensures var patched := m.orgs[i := ApplyOrgPatch(m.orgs[i], op)];
      WriteOrg(m, m.orgs[i], name, op) == (Some(patched[i]), m.(orgs := patched))
  {
    if IsEmptyOrgPatch(op) {
      assert ApplyOrgPatch(m.orgs[i], op) == m.orgs[i];
      assert m.orgs[i := m.orgs[i]] == m.orgs;
    }
  }

  /** Line 138 patches, by identifier, the admin paired with the organization at `i`. */
  lemma AdminStepPatches(m: Master, m1: Master, i: nat, ap: AdminPatch)
    requires MasterInv(m) && i < |m.orgs|
    requires m1.admins == m.admins && |m1.orgs| == |m.orgs|
    requires m1.orgs[i].admin.adminId == m.orgs[i].admin.adminId
    ensures WriteAdmin(m1, m1.orgs[i], ap) == (true, m1.(admins := m.admins[i := ApplyAdminPatch(m.admins[i], ap)]))
  {
    AdminIndexByIdOfOrg(m, i);
    if IsEmptyAdminPatch(ap) {
      assert ApplyAdminPatch(m.admins[i], ap) == m.admins[i];
      assert m.admins[i := m.admins[i]] == m.admins;
    }
  }

  /** The re-read of line 145 returns the patched organization. */
  lemma RefreshFindsPatched(m: Master, i: nat, name: Name, newName: Option<Name>, op: OrgPatch, ap: AdminPatch)
    requires MasterInv(m) && i < |m.orgs| && SameIgnoringCase(m.orgs[i].name, name)
    requires Renames(name, newName) ==> NoOrgNamed(m, newName.value)
    requires Renames(name, newName) ==> op.name == Some(newName.value)
    requires !Renames(name, newName) ==> op.name.None?
    requires IsEmptyOrgPatch(op) ==> !Renames(name, newName)
    ensures var m2 := Patched(m, i, op, ap);
      Refresh(m2, m2.orgs[i], name, FinalName(name, newName), !IsEmptyOrgPatch(op)) == Some(m2.orgs[i])
  {
    if !IsEmptyOrgPatch(op) {
      var m2 := Patched(m, i, op, ap);
      var final := FinalName(name, newName);
      assert SameIgnoringCase(m2.orgs[i].name, final);
      PatchedNamesDistinct(m, i, op, ap, name, newName);
      OnlyMatchIsIndex(m2.orgs, final, i);
    }
  }

  /** A rename to a free name, or no rename at all, keeps organization names distinct ignoring case. */
  lemma PatchedNamesDistinct(m: Master, i: nat, op: OrgPatch, ap: AdminPatch, name: Name, newName: Option<Name>)
    requires MasterInv(m) && i < |m.orgs|
    requires op.name.Some? ==> NoOrgNamed(m, op.name.value)
    ensures DistinctNames(Patched(m, i, op, ap).orgs)
  {
    var orgs' := Patched(m, i, op, ap).orgs;
    forall a, b | 0 <= a < b < |orgs'|
      ensures !SameIgnoringCase(orgs'[a].name, orgs'[b].name)
    {
      if a == i || b == i {
        if op.name.Some? {
          assert !SameIgnoringCase(m.orgs[if a == i then b else a].name, op.name.value);
        }
      } else {
        assert orgs'[a] == m.orgs[a] && orgs'[b] == m.orgs[b];
      }
    }
  }

  /** Patches that set the same name and email on both records keep the master store consistent. */
  lemma PatchedMasterInv(m: Master, i: nat, op: OrgPatch, ap: AdminPatch)
    requires MasterInv(m) && i < |m.orgs|
    requires op.name == ap.orgName && op.adminEmail == ap.email
    requires op.name.Some? ==> NoOrgNamed(m, op.name.value)
    ensures MasterInv(Patched(m, i, op, ap))
  {
    PatchedNamesDistinct(m, i, op, ap, m.orgs[i].name, None);
    var m' := Patched(m, i, op, ap);
    assert Paired(m'.orgs[i], m'.admins[i]);
    assert forall k | 0 <= k < |m'.orgs| && k != i :: m'.orgs[k] == m.orgs[k] && m'.admins[k] == m.admins[k];
  }

  /** Replacing the organization at `i` by one whose collection exists and is its own keeps the collections valid. */
  lemma ReplaceKeepsCollectionsInv(orgs: seq<OrgRecord>, cs: Collections, i: nat, o: OrgRecord)
    requires i < |orgs| && DistinctCollections(orgs)
    requires forall c | c in cs :: UniqueIds(cs[c])
    requires forall j | 0 <= j < |orgs| && j != i :: orgs[j].collection in cs
    requires o.collection in cs
    requires o.collection == orgs[i].collection || forall j | 0 <= j < |orgs| :: orgs[j].collection != o.collection
    ensures CollectionsInv(orgs[i := o], cs)
  {
  }

  /**
    The collection move of a rename keeps every other organization's collection, keeps `_id`s
    unique, and leaves the renamed organization's data in the new collection on success or in
    the old one on failure; provided the new collection belongs to no organization and the
    nested collection creation does not fail silently.
   */
  lemma MoveKeepsCollections(orgs: seq<OrgRecord>, cs: Collections, i: nat, target: string, f: Faults)
    requires CollectionsInv(orgs, cs) && i < |orgs|
    requires forall j | 0 <= j < |orgs| :: orgs[j].collection != target
    requires f.migrate != NestedCreateFails
    ensures var r := MoveCollection(cs, orgs[i].collection, target, f);
      && (forall c | c in r.1 :: UniqueIds(r.1[c]))
      && (forall j | 0 <= j < |orgs| && j != i :: orgs[j].collection in r.1)
      && (r.0 ==> target in r.1)
      && (!r.0 ==> orgs[i].collection in r.1)
  {
    var source := orgs[i].collection;
    if f.migrate != MigrateRaises && cs[source] != [] {
      InsertManyKeepsUnique(DocsOf(cs, target), cs[source]);
    }
    if f.migrate.NestedTempLeft? && cs[source] == [] {
      var temp := f.migrate.temp;
      var migrated := MigrateCollection(cs, source, target, f.migrate).1;
      if !HasId(DocsOf(cs, target), temp.id) {
        assert UniqueIds(DocsOf(cs, target));
        AppendFreshKeepsUnique(DocsOf(cs, target), temp);
        assert migrated == cs[target := DocsOf(cs, target) + [temp]];
      }
    }
  }

  /** Appending a document whose `_id` is not yet present keeps the `_id`s unique. */
  lemma AppendFreshKeepsUnique(docs: seq<Doc>, d: Doc)
    requires UniqueIds(docs) && !HasId(docs, d.id)
    ensures UniqueIds(docs + [d])
  {
    forall i, j | 0 <= i < j < |docs + [d]|
      ensures (docs + [d])[i].id != (docs + [d])[j].id
    {
      if j == |docs| {
        assert (docs + [d])[i] == docs[i];
      }
    }
  }

  /** The collection step of an update: the move of lines 98-111 when renaming, nothing otherwise. */
  function MoveStep(s: State, i: nat, name: Name, newName: Option<Name>, target: string, f: Faults): (bool, Collections)
    requires i < |s.master.orgs|
  {
    if Renames(name, newName) then MoveCollection(s.collections, s.master.orgs[i].collection, target, f)
    else (true, s.collections)
  }

  /** Past the lookups, an update is its collection step followed, on success, by its record writes. */
  lemma UpdateSteps(s: State, name: Name, newName: Option<Name>, target: string, email: Option<AsciiString>,
                    password: Option<string>, f: Faults)
    requires OrgIndex(s.master.orgs, name).Some?
    requires !(Renames(name, newName) && OrgIndex(s.master.orgs, newName.value).Some?)
    ensures var i := OrgIndex(s.master.orgs, name).value;
      var moved := MoveStep(s, i, name, newName, target, f);
      UpdateInto(s, name, newName, target, email, password, f) ==
        if !moved.0 then Step(Err(MigrationFailed), s.(collections := moved.1))
        else UpdateRecords(s.(collections := moved.1), s.master.orgs[i], name, newName, target, email, password)
  {
  }

  /** An update keeps the invariant when a rename targets a collection no organization uses. */
  lemma UpdateIntoPreservesInv(s: State, name: Name, newName: Option<Name>, target: string, email: Option<AsciiString>,
                               password: Option<string>, f: Faults)
    requires Inv(s)
    requires Renames(name, newName) ==> f.migrate != NestedCreateFails
    requires Renames(name, newName) ==> forall j | 0 <= j < |s.master.orgs| :: s.master.orgs[j].collection != target
    ensures Inv(UpdateInto(s, name, newName, target, email, password, f).state)
  {
    var r := UpdateInto(s, name, newName, target, email, password, f);
    if OrgIndex(s.master.orgs, name).Some? {
      var i := OrgIndex(s.master.orgs, name).value;
      var renames := Renames(name, newName);
      if !(renames && OrgIndex(s.master.orgs, newName.value).Some?) {
        UpdateSteps(s, name, newName, target, email, password, f);
        var moved := MoveStep(s, i, name, newName, target, f);
        if renames {
          MoveKeepsCollections(s.master.orgs, s.collections, i, target, f);
        }
        if moved.0 {
          var s1 := s.(collections := moved.1);
          var op := OrgPatchFor(name, newName, target, email);
          var ap := AdminPatchFor(name, newName, email, password);
          UpdateRecordsPatch(s1, name, newName, target, email, password);
          PatchedMasterInv(s.master, i, op, ap);
          var m2 := Patched(s.master, i, op, ap);
          assert r.state == State(m2, moved.1);
          ReplaceKeepsCollectionsInv(s.master.orgs, moved.1, i, m2.orgs[i]);
        }
      }
    }
  }

  /**
    `update_organization` preserves the invariant, provided a rename neither targets a
    collection some organization already uses (the code does not check this) nor meets a silent
    failure of the nested collection creation.
   */
  lemma UpdatePreservesInv(s: State, name: Name, newName: Option<Name>, email: Option<AsciiString>,
                           password: Option<string>, f: Faults)
    requires Inv(s)
    requires Renames(name, newName) ==> f.migrate != NestedCreateFails
    requires Renames(name, newName) ==>
      forall j | 0 <= j < |s.master.orgs| :: s.master.orgs[j].collection != Sanitize(newName.value)
    ensures Inv(OrgService.UpdateOrganization(s, name, newName, email, password, f).state)
  {
    UpdateIntoPreservesInv(s, name, newName, NewCollection(name, newName), email, password, f);
  }

  /**
    Past the lookups, an update whose collection step succeeds returns the found organization
    with both patches applied at its position, and keeps the collections the step left.
   */
  lemma UpdateLands(s: State, name: Name, newName: Option<Name>, target: string, email: Option<AsciiString>,
                    password: Option<string>, f: Faults)
    requires MasterInv(s.master)
    requires OrgIndex(s.master.orgs, name).Some?
    requires Renames(name, newName) ==> NoOrgNamed(s.master, newName.value)
    requires MoveStep(s, OrgIndex(s.master.orgs, name).value, name, newName, target, f).0
    ensures var i := OrgIndex(s.master.orgs, name).value;
      var m' := Patched(s.master, i, OrgPatchFor(name, newName, target, email), AdminPatchFor(name, newName, email, password));
      UpdateInto(s, name, newName, target, email, password, f) ==
        Step(Ok(m'.orgs[i]), State(m', MoveStep(s, i, name, newName, target, f).1))
  {
    var i := OrgIndex(s.master.orgs, name).value;
    var moved := MoveStep(s, i, name, newName, target, f);
    UpdateSteps(s, name, newName, target, email, password, f);
    UpdateRecordsPatch(s.(collections := moved.1), name, newName, target, email, password);
  }

  /**
    An update that does not rename (no new name, an empty one, or the same name in another case)
    always succeeds: it keeps the name and the collection, sets the email on both records and the
    password on the admin when given, and touches no other record.
   */
  lemma UpdateWithoutRename(s: State, name: Name, newName: Option<Name>, email: Option<AsciiString>,
                            password: Option<string>, f: Faults)
    requires MasterInv(s.master)
    requires OrgIndex(s.master.orgs, name).Some?
    requires !Renames(name, newName)
    ensures var i := OrgIndex(s.master.orgs, name).value;
      var o, a := s.master.orgs[i], s.master.admins[i];
      var r := OrgService.UpdateOrganization(s, name, newName, email, password, f);
      var o', a' := r.state.master.orgs[i], r.state.master.admins[i];
      && r.result == Ok(o')
      && r.state.collections == s.collections
      && |r.state.master.orgs| == |s.master.orgs| && |r.state.master.admins| == |s.master.admins|
      && o'.name == o.name && o'.collection == o.collection && o'.admin.adminId == o.admin.adminId
      && a'.orgName == a.orgName && a'.id == a.id
      && o'.admin.email == (if Given(email) then Lower(email.value) else o.admin.email)
      && a'.email == (if Given(email) then Lower(email.value) else a.email)
      && a'.password == (if Given(password) then HashPassword(password.value) else a.password)
      && (forall k | 0 <= k < |s.master.orgs| && k != i ::
            r.state.master.orgs[k] == s.master.orgs[k] && r.state.master.admins[k] == s.master.admins[k])
  {
    UpdateLands(s, name, newName, NewCollection(name, newName), email, password, f);
  }

  /** After a rename in place, the store finds the organization under its new name and not under its old one. */
  lemma RenamedFoundOnlyUnderNewName(m: Master, m': Master, i: nat, name: Name, newName: Name)
    requires DistinctNames(m.orgs) && DistinctNames(m'.orgs)
    requires i < |m.orgs| == |m'.orgs| && SameIgnoringCase(m.orgs[i].name, name)
    requires forall k | 0 <= k < |m.orgs| && k != i :: m'.orgs[k] == m.orgs[k]
    requires m'.orgs[i].name == newName && !SameIgnoringCase(newName, name)
    ensures FindOrganizationByName(m', newName) == Some(m'.orgs[i])
    ensures FindOrganizationByName(m', name).None?
  {
    OnlyMatchIsIndex(m'.orgs, newName, i);
    forall k | 0 <= k < |m'.orgs|
      ensures !SameIgnoringCase(m'.orgs[k].name, name)
    {
      if k != i {
        assert !SameIgnoringCase(m.orgs[i].name, m.orgs[k].name);
      }
    }
  }

  /**
    A rename whose target collection does not exist yet, with no database error, succeeds and
    moves the data: the old collection's documents are the new one's and the old one is gone.
   */
  lemma RenameIntoMovesData(s: State, name: Name, newName: Option<Name>, target: string, email: Option<AsciiString>,
                            password: Option<string>, f: Faults)
    requires Inv(s)
    requires OrgIndex(s.master.orgs, name).Some?
    requires Renames(name, newName) && NoOrgNamed(s.master, newName.value)
    requires target !in s.collections
    requires f.migrate == MigrateOk && !f.dropFails
    ensures var i := OrgIndex(s.master.orgs, name).value;
      var source := s.master.orgs[i].collection;
      var r := UpdateInto(s, name, newName, target, email, password, f);
      && r.result == Ok(r.state.master.orgs[i])
      && r.result.value.name == newName.value && r.result.value.collection == target
      && r.state.master.admins[i].orgName == newName.value
      && r.state.collections == s.collections[target := s.collections[source]] - {source}
      && (forall k | 0 <= k < |s.master.orgs| && k != i :: r.state.master.orgs[k] == s.master.orgs[k])
      && Inv(r.state)
  {
    var i := OrgIndex(s.master.orgs, name).value;
    var source := s.master.orgs[i].collection;
    var cs := s.collections;
    if cs[source] == [] {
      assert cs[target := DocsOf(cs, target)] == cs[target := cs[source]];
    } else {
      MigrateIntoFresh(cs, source, target);
    }
    UpdateLands(s, name, newName, target, email, password, f);
    UpdateIntoPreservesInv(s, name, newName, target, email, password, f);
  }

  /**
    A rename to a free name whose sanitized collection does not exist yet, with no database
    error, moves everything: the organization is found under the new name and no longer under
    the old one, its collection is the new one holding exactly the old documents, and the old
    collection is gone.
   */
  lemma RenameMovesData(s: State, name: Name, newName: Option<Name>, email: Option<AsciiString>,
                        password: Option<string>, f: Faults)
    requires Inv(s)
    requires OrgIndex(s.master.orgs, name).Some?
    requires Renames(name, newName) && NoOrgNamed(s.master, newName.value)
    requires NewCollection(name, newName) !in s.collections
    requires f.migrate == MigrateOk && !f.dropFails
    ensures var i := OrgIndex(s.master.orgs, name).value;
      var source, target := s.master.orgs[i].collection, NewCollection(name, newName);
      var r := OrgService.UpdateOrganization(s, name, newName, email, password, f);
      && r.result.Ok?
      && r.result.value.name == newName.value && r.result.value.collection == target
      && r.state.master.admins[i].orgName == newName.value
      && r.state.collections == s.collections[target := s.collections[source]] - {source}
      && GetOrganization(r.state, newName.value) == Ok(r.result.value)
      && GetOrganization(r.state, name) == Err(NotFound)
      && Inv(r.state)
  {
    var i := OrgIndex(s.master.orgs, name).value;
    var target := NewCollection(name, newName);
    RenameIntoMovesData(s, name, newName, target, email, password, f);
    var m' := UpdateInto(s, name, newName, target, email, password, f).state.master;
    RenamedFoundOnlyUnderNewName(s.master, m', i, name, newName.value);
  }

  /** Replacing the password hash of the first admin with a given email switches which password logs in. */
  lemma LoginAfterPasswordSwap(s: State, s': State, i: nat, login: AsciiString, before: string, after: string)
    requires MasterInv(s.master) && i < |s.master.admins|
    requires AdminIndexByEmail(s.master.admins, login) == Some(i)
    requires s.master.admins[i].password == HashPassword(before) && after != before
    requires |s'.master.orgs| == |s.master.orgs| && s'.master.orgs[i].name == s.master.orgs[i].name
    requires |s'.master.admins| == |s.master.admins|
    requires forall k | 0 <= k < |s.master.admins| && k != i :: s'.master.admins[k] == s.master.admins[k]
    requires s'.master.admins[i] == s.master.admins[i].(password := HashPassword(after))
    ensures AuthenticateAdmin(s, login, before).Some?
    ensures AuthenticateAdmin(s', login, after).Some?
    ensures AuthenticateAdmin(s', login, after).value.adminId == s.master.admins[i].id
    ensures AuthenticateAdmin(s', login, before).None?
  {
    assert Paired(s.master.orgs[i], s.master.admins[i]);
    Seqs.FirstIndexIs(s'.master.admins, (a: AdminRecord) => a.email == Lower(login), i);
  }

  /** `MigrationFailureKeepsOldCollection` for any rename target. */
  lemma MigrationFailureKeepsSourceInto(s: State, name: Name, newName: Option<Name>, target: string,
                                        email: Option<AsciiString>, password: Option<string>, f: Faults)
    requires OrgIndex(s.master.orgs, name).Some?
    requires s.master.orgs[OrgIndex(s.master.orgs, name).value].collection in s.collections
    ensures var source := s.master.orgs[OrgIndex(s.master.orgs, name).value].collection;
      var r := UpdateInto(s, name, newName, target, email, password, f);
      r.result == Err(MigrationFailed) ==>
        && r.state.master == s.master
        && source in r.state.collections && r.state.collections[source] == s.collections[source]
  {
    var i := OrgIndex(s.master.orgs, name).value;
    var source := s.master.orgs[i].collection;
    if !(Renames(name, newName) && OrgIndex(s.master.orgs, newName.value).Some?) {
      UpdateSteps(s, name, newName, target, email, password, f);
      if Renames(name, newName) && !MigrateCollection(s.collections, source, target, f.migrate).0 {
        MigrationFailureKeepsSource(s.collections, source, target, f.migrate);
      }
    }
  }

  /**
    A failed migration aborts the update before any record is written, and the old collection
    keeps its documents.
   */
  lemma MigrationFailureKeepsOldCollection(s: State, name: Name, newName: Option<Name>, email: Option<AsciiString>,
                                           password: Option<string>, f: Faults)
    requires OrgIndex(s.master.orgs, name).Some?
    requires s.master.orgs[OrgIndex(s.master.orgs, name).value].collection in s.collections
    ensures var source := s.master.orgs[OrgIndex(s.master.orgs, name).value].collection;
      var r := OrgService.UpdateOrganization(s, name, newName, email, password, f);
      r.result == Err(MigrationFailed) ==>
        && r.state.master == s.master
        && source in r.state.collections && r.state.collections[source] == s.collections[source]
  {
    MigrationFailureKeepsSourceInto(s, name, newName, NewCollection(name, newName), email, password, f);
  }

  /**
    A password change (without rename or email change) lets the admin in with the new password
    and no longer with the old one, provided the admin is the first with that email; the source
    does not keep emails unique, so an earlier admin with the same email would shadow it.
   */
  lemma PasswordChangeTakesEffect(s: State, name: Name, login: AsciiString, before: string, after: string, f: Faults)
    requires MasterInv(s.master)
    requires OrgIndex(s.master.orgs, name).Some?
    requires AdminIndexByEmail(s.master.admins, login) == OrgIndex(s.master.orgs, name)
    requires s.master.admins[OrgIndex(s.master.orgs, name).value].password == HashPassword(before)
    requires after != "" && after != before
    ensures AuthenticateAdmin(s, login, before).Some?
    ensures var s' := OrgService.UpdateOrganization(s, name, None, None, Some(after), f).state;
      && AuthenticateAdmin(s', login, after).Some?
      && AuthenticateAdmin(s', login, before).None?
      && AuthenticateAdmin(s', login, after).value.adminId == s.master.admins[OrgIndex(s.master.orgs, name).value].id
  {
    var i := OrgIndex(s.master.orgs, name).value;
    UpdateWithoutRename(s, name, None, None, Some(after), f);
    var s' := OrgService.UpdateOrganization(s, name, None, None, Some(after), f).state;
    LoginAfterPasswordSwap(s, s', i, login, before, after);
  }

  // ---------------------------------------------------------------------------------------
  // Hazards of update_organization, reproduced as the code has them
  // ---------------------------------------------------------------------------------------

  /** Moving a collection onto another existing one appends its documents there, when no `_id` clashes. */
  lemma MoveOntoExisting(cs: Collections, source: string, target: string, f: Faults)
    requires source in cs && target in cs && source != target
    requires UniqueIds(cs[target] + cs[source])
    requires f.migrate == MigrateOk && !f.dropFails
    ensures MoveCollection(cs, source, target, f) == (true, cs[target := cs[target] + cs[source]] - {source})
  {
    if cs[source] == [] {
      assert cs[target] + cs[source] == cs[target];
      assert cs[target := DocsOf(cs, target)] == cs;
    } else {
      InsertManyDisjoint(cs[target], cs[source]);
    }
  }

  /** Moving a collection onto itself fails when it holds documents, and loses it when it is empty. */
  lemma MoveOntoItself(cs: Collections, c: string, f: Faults)
    requires c in cs
    requires f.migrate != MigrateRaises && !f.dropFails
    ensures cs[c] != [] ==> MoveCollection(cs, c, c, f) == (false, cs)
    ensures cs[c] == [] ==> MoveCollection(cs, c, c, f) == (true, cs - {c})
  {
    if cs[c] != [] {
      MigrateOntoItself(cs, c, f.migrate);
    } else if f.migrate.NestedTempLeft? {
      assert DocsOf(cs, c) + [f.migrate.temp] == [f.migrate.temp];
      assert cs[c := [f.migrate.temp]] - {c} == cs - {c};
    } else {
      assert cs[c := DocsOf(cs, c)] == cs;
    }
  }

  /**
    Line 98 never checks that the sanitized new name is free, unlike line 25 on create. A rename
    whose target is another organization's collection succeeds, merges the documents into it,
    and leaves two organizations sharing one collection.
   */
  lemma RenameOntoTakenCollection(s: State, name: Name, newName: Option<Name>, email: Option<AsciiString>,
                                  password: Option<string>, f: Faults, j: nat)
    requires Inv(s)
    requires OrgIndex(s.master.orgs, name).Some? && j < |s.master.orgs| && j != OrgIndex(s.master.orgs, name).value
    requires Renames(name, newName) && NoOrgNamed(s.master, newName.value)
    requires s.master.orgs[j].collection == NewCollection(name, newName)
    requires var i := OrgIndex(s.master.orgs, name).value;
      var source, target := s.master.orgs[i].collection, s.master.orgs[j].collection;
      source in s.collections && target in s.collections && UniqueIds(s.collections[target] + s.collections[source])
    requires f.migrate == MigrateOk && !f.dropFails
    ensures var i := OrgIndex(s.master.orgs, name).value;
      var source, target := s.master.orgs[i].collection, s.master.orgs[j].collection;
      var r := OrgService.UpdateOrganization(s, name, newName, email, password, f);
      && r.result.Ok?
      && r.state.master.orgs[i].collection == r.state.master.orgs[j].collection == target
      && !DistinctCollections(r.state.master.orgs)
      && r.state.collections == s.collections[target := s.collections[target] + s.collections[source]] - {source}
  {
    var i := OrgIndex(s.master.orgs, name).value;
    var source, target := s.master.orgs[i].collection, s.master.orgs[j].collection;
    assert source != target by {
      if i < j {} else {}
    }
    MoveOntoExisting(s.collections, source, target, f);
    UpdateLands(s, name, newName, target, email, password, f);
    var orgs' := OrgService.UpdateOrganization(s, name, newName, email, password, f).state.master.orgs;
    assert orgs'[j] == s.master.orgs[j];
    if i < j {} else {}
  }

  /**
    A rename whose sanitized new name is the organization's own collection (a new name that
    differs only in punctuation, say) either fails migrating a non-empty collection onto itself,
    changing nothing, or, when the collection is empty, "creates" it, drops it at line 111, and
    reports success with the organization pointing at a collection that no longer exists.
   */
  lemma RenameOntoOwnCollection(s: State, name: Name, newName: Option<Name>, email: Option<AsciiString>,
                                password: Option<string>, f: Faults)
    requires Inv(s)
    requires OrgIndex(s.master.orgs, name).Some?
    requires Renames(name, newName) && NoOrgNamed(s.master, newName.value)
    requires NewCollection(name, newName) == s.master.orgs[OrgIndex(s.master.orgs, name).value].collection
    requires s.master.orgs[OrgIndex(s.master.orgs, name).value].collection in s.collections
    requires f.migrate != MigrateRaises && !f.dropFails
    ensures var i := OrgIndex(s.master.orgs, name).value;
      var c := s.master.orgs[i].collection;
      var r := OrgService.UpdateOrganization(s, name, newName, email, password, f);
      && (s.collections[c] != [] ==> r == Step(Err(MigrationFailed), s))
      && (s.collections[c] == [] ==>
            && r.result.Ok? && r.result.value.collection == c
            && c !in r.state.collections && !Inv(r.state))
  {
    var i := OrgIndex(s.master.orgs, name).value;
    var c := s.master.orgs[i].collection;
    MoveOntoItself(s.collections, c, f);
    if s.collections[c] != [] {
      UpdateSteps(s, name, newName, c, email, password, f);
      assert s.(collections := s.collections) == s;
    } else {
      UpdateLands(s, name, newName, c, email, password, f);
    }
  }

  /** Moving an absent collection succeeds and changes nothing. */
  lemma MoveFromMissing(cs: Collections, source: string, target: string, f: Faults)
    requires source !in cs && f.migrate != MigrateRaises
    ensures MoveCollection(cs, source, target, f) == (true, cs)
  {
    assert cs - {source} == cs;
  }

  /**
    When the old collection is absent, migration reports success without creating the new one
    (lines 43-44), so the renamed organization points at a collection that does not exist.
   */
  lemma RenameFromMissingCollection(s: State, name: Name, newName: Option<Name>, email: Option<AsciiString>,
                                    password: Option<string>, f: Faults)
    requires MasterInv(s.master)
    requires OrgIndex(s.master.orgs, name).Some?
    requires Renames(name, newName) && NoOrgNamed(s.master, newName.value)
    requires s.master.orgs[OrgIndex(s.master.orgs, name).value].collection !in s.collections
    requires NewCollection(name, newName) !in s.collections
    requires f.migrate != MigrateRaises
    ensures var r := OrgService.UpdateOrganization(s, name, newName, email, password, f);
      && r.result.Ok? && r.result.value.collection == NewCollection(name, newName)
      && r.state.collections == s.collections
      && r.result.value.collection !in r.state.collections
  {
    var i := OrgIndex(s.master.orgs, name).value;
    var target := NewCollection(name, newName);
    MoveFromMissing(s.collections, s.master.orgs[i].collection, target, f);
    UpdateLands(s, name, newName, target, email, password, f);
  }

  /**
    When the old collection is empty and the nested `create_collection` fails silently, the
    migration still reports success: the old collection is dropped and the new one never made.
   */
  lemma RenameLosesCollectionOnNestedFailure(s: State, name: Name, newName: Option<Name>, email: Option<AsciiString>,
                                             password: Option<string>, f: Faults)
    requires Inv(s)
    requires OrgIndex(s.master.orgs, name).Some?
    requires Renames(name, newName) && NoOrgNamed(s.master, newName.value)
    requires NewCollection(name, newName) !in s.collections
    requires s.collections[s.master.orgs[OrgIndex(s.master.orgs, name).value].collection] == []
    requires f.migrate == NestedCreateFails && !f.dropFails
    ensures var i := OrgIndex(s.master.orgs, name).value;
      var r := OrgService.UpdateOrganization(s, name, newName, email, password, f);
      && r.result.Ok? && r.result.value.collection == NewCollection(name, newName)
      && r.result.value.collection !in r.state.collections
      && s.master.orgs[i].collection !in r.state.collections
      && !Inv(r.state)
  {
    UpdateLands(s, name, newName, NewCollection(name, newName), email, password, f);
  }

  /** The organization of the concrete example below, and the name it is renamed to. */
  const ExampleName: Name := "Acme"
  const ExampleNewName: Name := "123abc"

  /** One organization `Acme` with its admin and its empty collection `org_acme`. */
  const ExampleStore := State(Master([OrgRecord(ExampleName, "org_acme", AdminInfo("a1", "x@y"), 0)],
                                     [AdminRecord("a1", "x@y", HashPassword("pw"), ExampleName, 0)]),
                              map["org_acme" := []])

  lemma ExampleNamesDiffer()
    ensures SameIgnoringCase(ExampleName, ExampleName)
    ensures !SameIgnoringCase(ExampleNewName, ExampleName)
  {
    assert Lower(ExampleName)[0] == 'a' && Lower(ExampleNewName)[0] == '1';
  }

  /**
    A concrete store in which the nested-failure hazard occurs: `Acme`, whose collection is
    empty, is renamed to `123abc` while the nested `create_collection` fails. The store satisfies
    the invariant before the update and violates it after the update succeeds.
   */
  lemma NestedFailureBreaksInvExample()
    ensures var f := Faults(false, false, CreateOk, NestedCreateFails, false);
      var r := OrgService.UpdateOrganization(ExampleStore, ExampleName, Some(ExampleNewName), None, None, f);
      && Inv(ExampleStore) && r.result.Ok? && r.result.value.collection == "org_123abc" && !Inv(r.state)
  {
    var s := ExampleStore;
    var f := Faults(false, false, CreateOk, NestedCreateFails, false);
    ExampleNamesDiffer();
    Seqs.FirstIndexIs(s.master.orgs, (o: OrgRecord) => SameIgnoringCase(o.name, ExampleName), 0);
    SanitizeLeadingDigit(ExampleNewName);
    RenameLosesCollectionOnNestedFailure(s, ExampleName, Some(ExampleNewName), None, None, f);
  }
}

=== FILE: master_repo.dfy ===
/**
  The master store of `app/repositories/master_repo.py`: the `organizations` and `admins`
  collections, modelled as two sequences in store order.

  Organization and admin-by-organization lookups in the source are regular expressions
  `^<name>$` with the case-insensitive option. For names made of printable ASCII without
  regular-expression metacharacters (the type `Name`) that is exactly ASCII case-insensitive
  equality, which is how matching is modelled here. Every lookup, removal and update acts on the
  FIRST record in store order that matches, as `find_one`, `delete_one` and
  `find_one_and_update` do.
 */
module MasterRepo {
  import opened Wrappers
  import opened Text
  import opened Passwords
  import Seqs

  /** Characters with a special meaning in a regular expression. */
  predicate IsRegexMeta(c: char) {
    c in "\\^$.|?*+()[]{}"
  }

  predicate IsPlainName(s: string) {
    forall i | 0 <= i < |s| :: 32 <= s[i] as int <= 126 && !IsRegexMeta(s[i])
  }

  /** Organization names: printable ASCII, no regular-expression metacharacters. */
  type Name = s: string | IsPlainName(s) witness ""

  /** Creation times are opaque instants supplied by the caller. */
  type Timestamp = nat

  /** The admin summary embedded in an organization record. */
  datatype AdminInfo = AdminInfo(adminId: string, email: string)

  datatype OrgRecord = OrgRecord(name: Name, collection: string, admin: AdminInfo, createdAt: Timestamp)

  /** An admin; `id` is both its `admin_id` field and its document `_id`. */
  datatype AdminRecord = AdminRecord(id: string, email: string, password: Hash, orgName: Name, createdAt: Timestamp)

  datatype Master = Master(orgs: seq<OrgRecord>, admins: seq<AdminRecord>)

  /** The fields a `$set` on an organization may carry; `None` leaves a field alone. */
  datatype OrgPatch = OrgPatch(name: Option<Name>, collection: Option<string>, adminEmail: Option<string>)

  /** The fields a `$set` on an admin may carry. */
  datatype AdminPatch = AdminPatch(orgName: Option<Name>, email: Option<string>, password: Option<Hash>)

  predicate IsEmptyOrgPatch(p: OrgPatch) {
    p.name.None? && p.collection.None? && p.adminEmail.None?
  }

  predicate IsEmptyAdminPatch(p: AdminPatch) {
    p.orgName.None? && p.email.None? && p.password.None?
  }

  /** `$set` on an organization: the given fields change, every other field keeps its value. */
  function ApplyOrgPatch(o: OrgRecord, p: OrgPatch): (r: OrgRecord)
    ensures r.createdAt == o.createdAt && r.admin.adminId == o.admin.adminId
    ensures p.name.None? ==> r.name == o.name
    ensures p.name.Some? ==> r.name == p.name.value
    ensures p.collection.None? ==> r.collection == o.collection
    ensures p.collection.Some? ==> r.collection == p.collection.value
    ensures p.adminEmail.None? ==> r.admin.email == o.admin.email
    ensures p.adminEmail.Some? ==> r.admin.email == p.adminEmail.value
  {
    OrgRecord(
      if p.name.Some? then p.name.value else o.name,
      if p.collection.Some? then p.collection.value else o.collection,
      AdminInfo(o.admin.adminId, if p.adminEmail.Some? then p.adminEmail.value else o.admin.email),
      o.createdAt)
  }

  /** `$set` on an admin: the given fields change, every other field keeps its value. */
  function ApplyAdminPatch(a: AdminRecord, p: AdminPatch): (r: AdminRecord)
    ensures r.id == a.id && r.createdAt == a.createdAt
    ensures p.orgName.None? ==> r.orgName == a.orgName
    ensures p.orgName.Some? ==> r.orgName == p.orgName.value
    ensures p.email.None? ==> r.email == a.email
    ensures p.email.Some? ==> r.email == p.email.value
    ensures p.password.None? ==> r.password == a.password
    ensures p.password.Some? ==> r.password == p.password.value
  {
    AdminRecord(
      a.id,
      if p.email.Some? then p.email.value else a.email,
      if p.password.Some? then p.password.value else a.password,
      if p.orgName.Some? then p.orgName.value else a.orgName,
      a.createdAt)
  }

  // ---------------------------------------------------------------------------------------
  // Organizations
  // ---------------------------------------------------------------------------------------

  /** Position of the first organization whose name equals `name` ignoring case. */
  function OrgIndex(orgs: seq<OrgRecord>, name: Name): (r: Option<nat>)
    ensures r.Some? ==> r.value < |orgs| && SameIgnoringCase(orgs[r.value].name, name)
    ensures r.Some? ==> forall j | 0 <= j < r.value :: !SameIgnoringCase(orgs[j].name, name)
    ensures r.None? <==> forall j | 0 <= j < |orgs| :: !SameIgnoringCase(orgs[j].name, name)
  {
    Seqs.FirstIndex(orgs, (o: OrgRecord) => SameIgnoringCase(o.name, name))
  }

  /** `find_organization_by_name`, lines 24-32. */
  function FindOrganizationByName(m: Master, name: Name): (r: Option<OrgRecord>)
    ensures r.None? <==> forall j | 0 <= j < |m.orgs| :: !SameIgnoringCase(m.orgs[j].name, name)
    ensures r.Some? ==> exists i | 0 <= i < |m.orgs| ::
      && r.value == m.orgs[i]
      && SameIgnoringCase(m.orgs[i].name, name)
      && forall j | 0 <= j < i :: !SameIgnoringCase(m.orgs[j].name, name)
  {
    match OrgIndex(m.orgs, name)
    case None => None
    case Some(i) => Some(m.orgs[i])
  }

  /** `create_organization`, lines 35-41: stamps the record and appends it. */
  function CreateOrganization(m: Master, data: OrgRecord, now: Timestamp): (r: (OrgRecord, Master))
    ensures r.0 == data.(createdAt := now)
    ensures r.1.orgs == m.orgs + [r.0] && r.1.admins == m.admins
  {
    var stored := data.(createdAt := now);
    (stored, m.(orgs := m.orgs + [stored]))
  }

  /** `update_organization`, lines 44-54: `$set` on the first match only; `None` when nothing matches. */
  function UpdateOrganization(m: Master, name: Name, patch: OrgPatch): (r: (Option<OrgRecord>, Master))
    ensures OrgIndex(m.orgs, name).None? ==> r == (None, m)
    ensures OrgIndex(m.orgs, name).Some? ==>
      var i := OrgIndex(m.orgs, name).value;
      && r.1 == m.(orgs := m.orgs[i := ApplyOrgPatch(m.orgs[i], patch)])
      && r.0 == Some(r.1.orgs[i])
  {
    match OrgIndex(m.orgs, name)
    case None => (None, m)
    case Some(i) =>
      var updated := ApplyOrgPatch(m.orgs[i], patch);
      (Some(updated), m.(orgs := m.orgs[i := updated]))
  }

  /** `delete_organization`, lines 57-63: removes the first match; true iff a record was removed. */
  function DeleteOrganization(m: Master, name: Name): (r: (bool, Master))
    ensures r.0 <==> exists j | 0 <= j < |m.orgs| :: SameIgnoringCase(m.orgs[j].name, name)
    ensures |r.1.orgs| == |m.orgs| - (if r.0 then 1 else 0)
    ensures r.1.admins == m.admins
    ensures !r.0 ==> r.1 == m
    ensures r.0 ==> r.1.orgs == Seqs.RemoveAt(m.orgs, OrgIndex(m.orgs, name).value)
  {
    match OrgIndex(m.orgs, name)
    case None => (false, m)
    case Some(i) => (true, m.(orgs := Seqs.RemoveAt(m.orgs, i)))
  }

  /** `list_all_organizations`, lines 116-124: every record, in store order. */
  function ListAllOrganizations(m: Master): (r: seq<OrgRecord>)
    ensures |r| == |m.orgs| && forall i | 0 <= i < |r| :: r[i] == m.orgs[i]
  {
    m.orgs
  }

  /** Whatever a lookup by name returns is among the listed organizations. */
  lemma FoundIsListed(m: Master, name: Name)
    ensures FindOrganizationByName(m, name).Some? ==> FindOrganizationByName(m, name).value in ListAllOrganizations(m)
  {
  }

  // ---------------------------------------------------------------------------------------
  // Admins
  // ---------------------------------------------------------------------------------------

  /** `create_admin`, lines 66-71: appends the record. */
  function CreateAdmin(m: Master, a: AdminRecord): (r: (AdminRecord, Master))
    ensures r.0 == a
    ensures r.1.admins == m.admins + [a] && r.1.orgs == m.orgs
  {
    (a, m.(admins := m.admins + [a]))
  }

  /** Position of the first admin whose stored email equals `email.lower()`. */
  function AdminIndexByEmail(admins: seq<AdminRecord>, email: string): (r: Option<nat>)
    ensures r.Some? ==> r.value < |admins| && admins[r.value].email == Lower(email)
    ensures r.Some? ==> forall j | 0 <= j < r.value :: admins[j].email != Lower(email)
    ensures r.None? <==> forall j | 0 <= j < |admins| :: admins[j].email != Lower(email)
  {
    Seqs.FirstIndex(admins, (a: AdminRecord) => a.email == Lower(email))
  }

  /** `find_admin_by_email`, lines 74-80: exact match on the lowercased query; the first admin wins. */
  function FindAdminByEmail(m: Master, email: AsciiString): (r: Option<AdminRecord>)
    ensures r.None? <==> forall j | 0 <= j < |m.admins| :: m.admins[j].email != Lower(email)
    ensures r.Some? ==> exists i | 0 <= i < |m.admins| ::
      && r.value == m.admins[i]
      && m.admins[i].email == Lower(email)
      && forall j | 0 <= j < i :: m.admins[j].email != Lower(email)
  {
    match AdminIndexByEmail(m.admins, email)
    case None => None
    case Some(i) => Some(m.admins[i])
  }

  /** Position of the first admin whose back-reference equals `name` ignoring case. */
  function AdminIndexByOrg(admins: seq<AdminRecord>, name: Name): (r: Option<nat>)
    ensures r.Some? ==> r.value < |admins| && SameIgnoringCase(admins[r.value].orgName, name)
    ensures r.Some? ==> forall j | 0 <= j < r.value :: !SameIgnoringCase(admins[j].orgName, name)
    ensures r.None? <==> forall j | 0 <= j < |admins| :: !SameIgnoringCase(admins[j].orgName, name)
  {
    Seqs.FirstIndex(admins, (a: AdminRecord) => SameIgnoringCase(a.orgName, name))
  }

  /** `find_admin_by_org`, lines 83-91. */
  function FindAdminByOrg(m: Master, name: Name): (r: Option<AdminRecord>)
    ensures r.None? <==> forall j | 0 <= j < |m.admins| :: !SameIgnoringCase(m.admins[j].orgName, name)
    ensures r.Some? ==> exists i | 0 <= i < |m.admins| ::
      && r.value == m.admins[i]
      && SameIgnoringCase(m.admins[i].orgName, name)
      && forall j | 0 <= j < i :: !SameIgnoringCase(m.admins[j].orgName, name)
  {
    match AdminIndexByOrg(m.admins, name)
    case None => None
    case Some(i) => Some(m.admins[i])
  }

  /** Position of the first admin with identifier `id`. */
  function AdminIndexById(admins: seq<AdminRecord>, id: string): (r: Option<nat>)
    ensures r.Some? ==> r.value < |admins| && admins[r.value].id == id
    ensures r.Some? ==> forall j | 0 <= j < r.value :: admins[j].id != id
    ensures r.None? <==> forall j | 0 <= j < |admins| :: admins[j].id != id
  {
    Seqs.FirstIndex(admins, (a: AdminRecord) => a.id == id)
  }

  /** `update_admin`, lines 94-104: matches by identifier only; `None` when no admin has it. */
  function UpdateAdmin(m: Master, id: string, patch: AdminPatch): (r: (Option<AdminRecord>, Master))
    ensures AdminIndexById(m.admins, id).None? ==> r == (None, m)
    ensures AdminIndexById(m.admins, id).Some? ==>
      var i := AdminIndexById(m.admins, id).value;
      && r.1 == m.(admins := m.admins[i := ApplyAdminPatch(m.admins[i], patch)])
      && r.0 == Some(r.1.admins[i])
  {
    match AdminIndexById(m.admins, id)
    case None => (None, m)
    case Some(i) =>
      var updated := ApplyAdminPatch(m.admins[i], patch);
      (Some(updated), m.(admins := m.admins[i := updated]))
  }

  /** `delete_admin_by_org`, lines 107-113: removes the first match; true iff a record was removed. */
  function DeleteAdminByOrg(m: Master, name: Name): (r: (bool, Master))
    ensures r.0 <==> exists j | 0 <= j < |m.admins| :: SameIgnoringCase(m.admins[j].orgName, name)
    ensures |r.1.admins| == |m.admins| - (if r.0 then 1 else 0)
    ensures r.1.orgs == m.orgs
    ensures !r.0 ==> r.1 == m
    ensures r.0 ==> r.1.admins == Seqs.RemoveAt(m.admins, AdminIndexByOrg(m.admins, name).value)
  {
    match AdminIndexByOrg(m.admins, name)
    case None => (false, m)
    case Some(i) => (true, m.(admins := Seqs.RemoveAt(m.admins, i)))
  }

  // ---------------------------------------------------------------------------------------
  // Lemmas relating the operations
  // ---------------------------------------------------------------------------------------

  /** A freshly created organization is what a lookup of its name returns, when no earlier record matched. */
  lemma CreatedOrganizationIsFound(m: Master, data: OrgRecord, now: Timestamp)
    requires FindOrganizationByName(m, data.name).None?
    ensures FindOrganizationByName(CreateOrganization(m, data, now).1, data.name) == Some(data.(createdAt := now))
  {
    var m' := CreateOrganization(m, data, now).1;
    Seqs.FirstIndexIs(m'.orgs, (o: OrgRecord) => SameIgnoringCase(o.name, data.name), |m.orgs|);
  }

  /** Deleting by a name removes the record a lookup would have returned; nothing else moves. */
  lemma DeleteRemovesFound(m: Master, name: Name)
    requires FindOrganizationByName(m, name).Some?
    ensures var r := DeleteOrganization(m, name);
      && r.0
      && multiset(r.1.orgs) + multiset{FindOrganizationByName(m, name).value} == multiset(m.orgs)
  {
    var i := OrgIndex(m.orgs, name).value;
    assert m.orgs == m.orgs[..i] + [m.orgs[i]] + m.orgs[i + 1..];
  }

  /** Deleting a name twice: the second call finds nothing when the name was unique. */
  lemma DeleteTwice(m: Master, name: Name)
    requires forall i, j | 0 <= i < j < |m.orgs| :: !SameIgnoringCase(m.orgs[i].name, m.orgs[j].name)
    ensures !DeleteOrganization(DeleteOrganization(m, name).1, name).0
  {
    var r := DeleteOrganization(m, name);
    if r.0 {
      var i := OrgIndex(m.orgs, name).value;
      forall j | 0 <= j < |r.1.orgs|
        ensures !SameIgnoringCase(r.1.orgs[j].name, name)
      {
        if j < i {
          assert r.1.orgs[j] == m.orgs[j];
        } else {
          assert r.1.orgs[j] == m.orgs[j + 1];
        }
      }
    }
  }
}

=== FILE: org_repo.dfy ===
/**
  The tenant collections of `app/repositories/org_repo.py`: a map from collection name to the
  documents it holds, in insertion order.

  Every operation of the source catches any exception and reports failure (`False`, `0` or `[]`)
  instead. Where that failure is reachable from a real database error, the model takes a boolean
  or `MigrateFault` oracle saying whether the call fails, so callers can be studied on both paths.
  The one failure that follows from the data itself, a duplicate `_id` during the ordered
  `insert_many` of a migration, is computed rather than supplied.
 */
module OrgRepo {
  import opened Text

  /** A tenant document: its `_id` and an opaque body. */
  datatype Doc = Doc(id: nat, body: string)

  type Collections = map<string, seq<Doc>>

  /** MongoDB keeps `_id` unique within a collection. */
  predicate UniqueIds(docs: seq<Doc>) {
    forall i, j | 0 <= i < j < |docs| :: docs[i].id != docs[j].id
  }

  predicate HasId(docs: seq<Doc>, id: nat) {
    exists k | 0 <= k < |docs| :: docs[k].id == id
  }

  /** The documents already in `name`; a missing collection reads as empty. */
  function DocsOf(cs: Collections, name: string): seq<Doc> {
    if name in cs then cs[name] else []
  }

  /**
    How a `create_collection` call goes wrong, if it does. The call inserts a temporary document
    (line 17) and deletes it again (line 18); either step can raise, and the exception is swallowed.
   */
  datatype CreateFault =
    | CreateOk                 // no database error
    | InsertRaises             // the temporary insert raises; nothing is written
    | DeleteRaises(temp: Doc)  // the temporary document `temp` is inserted, then its delete raises

  /**
    `create_collection`, lines 9-21: afterwards the collection exists, and an existing one keeps
    its documents. When the delete of the temporary document raises, the call reports failure but
    the collection exists and still holds that document; an insert whose `_id` is already taken
    raises instead.
   */
  function CreateCollection(cs: Collections, name: string, fault: CreateFault): (r: (bool, Collections))
    ensures r.0 <==> fault == CreateOk
    ensures fault == InsertRaises ==> r.1 == cs
    ensures fault == CreateOk ==> r.1 == cs[name := DocsOf(cs, name)]
    ensures fault.DeleteRaises? && HasId(DocsOf(cs, name), fault.temp.id) ==> r.1 == cs
    ensures fault.DeleteRaises? && !HasId(DocsOf(cs, name), fault.temp.id) ==>
      r.1 == cs[name := DocsOf(cs, name) + [fault.temp]]
    ensures forall n | n in cs && n != name :: n in r.1 && r.1[n] == cs[n]
    ensures r.1.Keys <= cs.Keys + {name}
  {
    match fault
    case CreateOk => (true, cs[name := DocsOf(cs, name)])
    case InsertRaises => (false, cs)
    case DeleteRaises(temp) =>
      if HasId(DocsOf(cs, name), temp.id) then (false, cs)
      else (false, cs[name := DocsOf(cs, name) + [temp]])
  }

  /** How a migration call goes wrong, if it does. */
  datatype MigrateFault =
    | MigrateOk                // no database error
    | MigrateRaises            // the lookup or read raises; nothing is written
    | NestedCreateFails        // the `create_collection` of the empty-source branch raises on its insert
    | NestedTempLeft(temp: Doc) // that `create_collection` leaves its temporary document `temp` behind

  /** The fault of the `create_collection` nested in a migration of an empty source (line 55). */
  function NestedCreate(fault: MigrateFault): CreateFault {
    match fault
    case NestedCreateFails => InsertRaises
    case NestedTempLeft(temp) => DeleteRaises(temp)
    case _ => CreateOk
  }

  /** `collection_exists`, lines 24-31. */
  function CollectionExists(cs: Collections, name: string): (r: bool)
    ensures r <==> name in cs
  {
    name in cs
  }

  /**
    The ordered `insert_many` of line 61: documents go in one by one and the first whose `_id`
    is already present stops the call with an error, leaving the ones before it inserted.
   */
  function InsertMany(target: seq<Doc>, docs: seq<Doc>): (r: (bool, seq<Doc>))
    ensures exists k | 0 <= k <= |docs| :: r.1 == target + docs[..k] && (r.0 <==> k == |docs|) && StopsAt(target, docs, k)
    decreases |docs|
  {
    if docs == [] then
      assert target + docs[..0] == target;
      assert StopsAt(target, docs, 0);
      (true, target)
    else if HasId(target, docs[0].id) then
      assert target + docs[..0] == target;
      assert StopsAt(target, docs, 0);
      (false, target)
    else
      var rest := InsertMany(target + [docs[0]], docs[1..]);
      assert forall k | 0 <= k <= |docs| - 1 :: target + [docs[0]] + docs[1..][..k] == target + docs[..k + 1];
      assert exists k | 0 <= k <= |docs| :: rest.1 == target + docs[..k] && (rest.0 <==> k == |docs|) && StopsAt(target, docs, k) by {
        var k :| 0 <= k <= |docs| - 1 && rest.1 == target + [docs[0]] + docs[1..][..k] && (rest.0 <==> k == |docs| - 1)
                 && StopsAt(target + [docs[0]], docs[1..], k);
        StopsAtCons(target, docs, k);
      }
      rest
  }

  /**
    The ordered insert stops after `k` documents: each of the first `k` had an `_id` not yet in the
    collection, and the next one, if any, has an `_id` that already is.
   */
  predicate StopsAt(target: seq<Doc>, docs: seq<Doc>, k: nat)
    requires k <= |docs|
  {
    && (forall j | 0 <= j < k :: !HasId(target + docs[..j], docs[j].id))
    && (k < |docs| ==> HasId(target + docs[..k], docs[k].id))
  }

  /** Stopping after `k` documents once the first is in is stopping after `k + 1` from the start. */
  lemma StopsAtCons(target: seq<Doc>, docs: seq<Doc>, k: nat)
    requires 0 < |docs| && k < |docs| && !HasId(target, docs[0].id)
    requires StopsAt(target + [docs[0]], docs[1..], k)
    ensures StopsAt(target, docs, k + 1)
  {
    forall j | 0 <= j < k + 1
      ensures !HasId(target + docs[..j], docs[j].id)
    {
      if j == 0 {
        assert target + docs[..0] == target;
      } else {
        assert target + [docs[0]] + docs[1..][..j - 1] == target + docs[..j];
      }
    }
    if k + 1 < |docs| {
      assert target + [docs[0]] + docs[1..][..k] == target + docs[..k + 1];
    }
  }

  /**
    `migrate_collection`, lines 34-66. A missing source succeeds without creating the target; an
    empty source only creates the target, with the faults of `create_collection` and success
    reported whatever that call returns; otherwise the source documents are appended to the
    target in order, up to the first duplicate `_id`. The source itself is never written.
   */
  function MigrateCollection(cs: Collections, source: string, target: string, fault: MigrateFault): (r: (bool, Collections))
    ensures fault == MigrateRaises ==> r == (false, cs)
    ensures fault != MigrateRaises && source !in cs ==> r == (true, cs)
    ensures fault == MigrateOk && source in cs && cs[source] == [] ==>
      r.0 && r.1 == cs[target := DocsOf(cs, target)]
    ensures fault == NestedCreateFails && source in cs && cs[source] == [] ==> r == (true, cs)
    ensures fault.NestedTempLeft? && source in cs && cs[source] == [] ==>
      && r.0
      && (HasId(DocsOf(cs, target), fault.temp.id) ==> r.1 == cs)
      && (!HasId(DocsOf(cs, target), fault.temp.id) ==> r.1 == cs[target := DocsOf(cs, target) + [fault.temp]])
    ensures fault != MigrateRaises && source in cs && cs[source] != [] ==>
      && target in r.1
      && exists k | 0 <= k <= |cs[source]| ::
        r.1[target] == DocsOf(cs, target) + cs[source][..k] && (r.0 <==> k == |cs[source]|)
    ensures forall n | n in cs && n != target :: n in r.1 && r.1[n] == cs[n]
    ensures r.1.Keys <= cs.Keys + {target}
  {
    if fault == MigrateRaises then (false, cs)
    else if source !in cs then (true, cs)
    else if cs[source] == [] then (true, CreateCollection(cs, target, NestedCreate(fault)).1)
    else
      var inserted := InsertMany(DocsOf(cs, target), cs[source]);
      (inserted.0, cs[target := inserted.1])
  }

  /** `drop_collection`, lines 69-76: dropping an absent collection succeeds and changes nothing. */
  function DropCollection(cs: Collections, name: string, fails: bool): (r: (bool, Collections))
    ensures fails ==> r == (false, cs)
    ensures !fails ==> r.0 && name !in r.1 && r.1.Keys == cs.Keys - {name}
    ensures forall n | n in r.1 :: n in cs && r.1[n] == cs[n]
  {
    if fails then (false, cs) else (true, cs - {name})
  }

  /** `get_collection_document_count`, lines 79-86. */
  function GetCollectionDocumentCount(cs: Collections, name: string): (r: nat)
    ensures name !in cs ==> r == 0
    ensures name in cs ==> r == |cs[name]|
  {
    if name in cs then |cs[name]| else 0
  }

  /** The prefix that `list_collections` filters on (line 95). */
  const OrgCollectionPrefix := "org_"

  /** `list_collections`, lines 89-97: the existing names with the `org_` prefix, or none on error. */
  function ListCollections(cs: Collections, fails: bool): (r: set<string>)
    ensures fails ==> r == {}
    ensures !fails ==> forall n :: n in r <==> n in cs && StartsWith(n, OrgCollectionPrefix)
  {
    if fails then {} else set n | n in cs && StartsWith(n, OrgCollectionPrefix)
  }

  // ---------------------------------------------------------------------------------------
  // Lemmas
  // ---------------------------------------------------------------------------------------

  /** A successful creation lists the new name exactly when it carries the `org_` prefix. */
  lemma CreateCollectionLists(cs: Collections, name: string)
    ensures ListCollections(CreateCollection(cs, name, CreateOk).1, false) ==
      ListCollections(cs, false) + (if StartsWith(name, OrgCollectionPrefix) then {name} else {})
  {
  }

  /** A successful drop unlists the dropped name and nothing else. */
  lemma DropCollectionUnlists(cs: Collections, name: string)
    ensures ListCollections(DropCollection(cs, name, false).1, false) == ListCollections(cs, false) - {name}
  {
  }

  /** When no `_id` clashes, the ordered insert puts every document in, in order. */
  lemma {:induction false} InsertManyDisjoint(target: seq<Doc>, docs: seq<Doc>)
    requires UniqueIds(target + docs)
    ensures InsertMany(target, docs) == (true, target + docs)
    decreases |docs|
  {
    if docs != [] {
      var all := target + docs;
      assert !HasId(target, docs[0].id) by {
        forall k | 0 <= k < |target|
          ensures target[k].id != docs[0].id
        {
          assert all[k] == target[k] && all[|target|] == docs[0];
        }
      }
      assert target + [docs[0]] + docs[1..] == all;
      InsertManyDisjoint(target + [docs[0]], docs[1..]);
    }
  }

  /** The ordered insert never creates a duplicate `_id`. */
  lemma {:induction false} InsertManyKeepsUnique(target: seq<Doc>, docs: seq<Doc>)
    requires UniqueIds(target)
    ensures UniqueIds(InsertMany(target, docs).1)
    decreases |docs|
  {
    if docs != [] && !HasId(target, docs[0].id) {
      var grown := target + [docs[0]];
      assert UniqueIds(grown) by {
        forall i, j | 0 <= i < j < |grown|
          ensures grown[i].id != grown[j].id
        {
          if j == |target| {
            assert grown[i] == target[i];
          }
        }
      }
      InsertManyKeepsUnique(grown, docs[1..]);
    }
  }

  /** Migrating a non-empty collection onto itself fails at its first document and writes nothing. */
  lemma MigrateOntoItself(cs: Collections, name: string, fault: MigrateFault)
    requires name in cs && cs[name] != []
    ensures MigrateCollection(cs, name, name, fault) == (false, cs)
  {
    var docs := cs[name];
    if fault != MigrateRaises {
      assert HasId(docs, docs[0].id);
      assert cs[name := docs] == cs;
    }
  }

  /** A failed migration leaves the source collection exactly as it was. */
  lemma MigrationFailureKeepsSource(cs: Collections, source: string, target: string, fault: MigrateFault)
    requires source in cs
    requires !MigrateCollection(cs, source, target, fault).0
    ensures var r := MigrateCollection(cs, source, target, fault).1;
      source in r && r[source] == cs[source]
  {
    if source == target && cs[source] != [] {
      MigrateOntoItself(cs, source, fault);
    }
  }

  /** Migrating a collection with distinct `_id`s into a fresh name copies it whole and succeeds. */
  lemma MigrateIntoFresh(cs: Collections, source: string, target: string)
    requires source in cs && cs[source] != [] && UniqueIds(cs[source])
    requires target !in cs
    ensures MigrateCollection(cs, source, target, MigrateOk) == (true, cs[target := cs[source]])
  {
    var docs := cs[source];
    MigrateNonEmpty(cs, source, target);
    assert [] + docs == docs;
    InsertManyDisjoint([], docs);
  }

  /** A non-empty source is appended to the target by the ordered insert. */
  lemma MigrateNonEmpty(cs: Collections, source: string, target: string)
    requires source in cs && cs[source] != []
    ensures var inserted := InsertMany(DocsOf(cs, target), cs[source]);
      MigrateCollection(cs, source, target, MigrateOk) == (inserted.0, cs[target := inserted.1])
  {
  }

  /** A successful `create_collection` is seen by `collection_exists`; a new collection counts zero documents. */
  lemma CreatedCollectionExists(cs: Collections, name: string)
    requires name !in cs
    ensures var r := CreateCollection(cs, name, CreateOk).1;
      CollectionExists(r, name) && GetCollectionDocumentCount(r, name) == 0
  {
  }

  /**
    A creation whose temporary delete raises reports failure, yet the new collection exists and
    counts the one temporary document.
   */
  lemma FailedCreateLeavesTemp(cs: Collections, name: string, temp: Doc)
    requires name !in cs
    ensures var r := CreateCollection(cs, name, DeleteRaises(temp));
      && !r.0
      && CollectionExists(r.1, name) && GetCollectionDocumentCount(r.1, name) == 1
      && r.1[name] == [temp]
  {
    assert DocsOf(cs, name) == [];
    assert !HasId([], temp.id);
  }

  /** Dropping twice is the same as dropping once. */
  lemma DropIdempotent(cs: Collections, name: string)
    ensures var once := DropCollection(cs, name, false).1;
      DropCollection(once, name, false) == (true, once) && !CollectionExists(once, name)
  {
    var once := DropCollection(cs, name, false).1;
    assert once - {name} == once;
  }
}

=== FILE: org_routes.dfy ===
/**
  The HTTP layer of `app/api/routes/org_routes.py`: parsing the `Authorization` header, the
  cross-tenant access check, and the mapping from service outcomes to status codes.

  Token verification lives outside this model and is a parameter: a function from the token text
  to the claims it carries, or `None` when the token is invalid or expired. Claims are a map from
  claim name to text; FastAPI's dependency runs the header check before the handler body.
 */
module OrgRoutes {
  import opened Wrappers
  import opened Text
  import opened MasterRepo
  import opened OrgRepo
  import opened OrgService
  import opened Helpers
  import Lifecycle

  type Claims = map<string, string>

  /** Why a request was refused. */
  datatype Cause =
    | HeaderMissing        // lines 18-22
    | BadHeaderFormat      // lines 32-35
    | BadScheme            // lines 26-30
    | BadToken             // lines 38-42
    | Forbidden            // lines 51-55
    | NotDeleted           // lines 176-180
    | Service(error: Error)

  /** What the client receives: a success body, or an `HTTPException` with its status. */
  datatype Reply =
    | Done(status: nat, message: string, org: Option<OrgRecord>)
    | Refused(status: nat, cause: Cause)

  const CreatedMessage := "Organization created successfully"
  const UpdatedMessage := "Organization updated successfully"

  /** The message of lines 182-184. */
  function DeletedMessage(name: string): string {
    "Organization '" + name + "' deleted successfully"
  }

  // ---------------------------------------------------------------------------------------
  // get_current_admin, lines 17-44
  // ---------------------------------------------------------------------------------------

  /** The header splits into a scheme that lowercases to `bearer` and one token. */
  predicate IsBearerHeader(header: AsciiString) {
    var parts := Words(header);
    |parts| == 2 && Lower(parts[0]) == "bearer"
  }

  /**
    A missing or empty header, a header that is not exactly two whitespace-separated words, a
    scheme other than `bearer` in any case, and a token whose claims are absent or empty (a falsy
    dictionary) are all refused with 401; otherwise the claims are returned.
   */
  function GetCurrentAdmin(header: Option<AsciiString>, verify: string -> Option<Claims>): (r: Result<Claims, Reply>)
    ensures r.Err? ==> r.error.Refused? && r.error.status == 401
    ensures !(header.Some? && header.value != "") ==> r == Err(Refused(401, HeaderMissing))
    ensures r.Ok? <==>
      && header.Some? && header.value != ""
      && IsBearerHeader(header.value)
      && verify(Words(header.value)[1]).Some?
      && verify(Words(header.value)[1]).value != map[]
    ensures r.Ok? ==> r.value == verify(Words(header.value)[1]).value
  {
    if header.None? || header.value == "" then Err(Refused(401, HeaderMissing))
    else
      var parts := Words(header.value);
      if |parts| != 2 then Err(Refused(401, BadHeaderFormat))
      else if Lower(parts[0]) != "bearer" then Err(Refused(401, BadScheme))
      else
        match verify(parts[1])
        case None => Err(Refused(401, BadToken))
        case Some(claims) => if claims == map[] then Err(Refused(401, BadToken)) else Ok(claims)
  }

  /** A well-formed `Bearer` header, in any letter case, hands its token to the verifier. */
  lemma BearerHeaderAccepted(scheme: AsciiString, token: AsciiString, verify: string -> Option<Claims>)
    requires Lower(scheme) == "bearer"
    requires |token| > 0 && NoSpace(token)
    ensures var header: AsciiString := scheme + " " + token;
      && IsBearerHeader(header)
      && GetCurrentAdmin(Some(header), verify) ==
           match verify(token)
           case None => Err(Refused(401, BadToken))
           case Some(claims) => if claims == map[] then Err(Refused(401, BadToken)) else Ok(claims)
  {
    assert NoSpace(scheme) by {
      forall i | 0 <= i < |scheme|
        ensures !IsSpace(scheme[i])
      {
        assert Lower(scheme)[i] == LowerChar(scheme[i]);
      }
    }
    WordsOfPair(scheme, token);
  }

  /** A header with anything but one scheme and one token is refused as malformed. */
  lemma WrongWordCountRefused(header: AsciiString, verify: string -> Option<Claims>)
    requires header != "" && |Words(header)| != 2
    ensures GetCurrentAdmin(Some(header), verify) == Err(Refused(401, BadHeaderFormat))
  {
  }

  // ---------------------------------------------------------------------------------------
  // verify_org_access, lines 47-57
  // ---------------------------------------------------------------------------------------

  /** The organization named in the token; a missing claim reads as the empty string (line 48). */
  function ClaimedOrg(claims: Claims): string {
    if "organization_name" in claims then claims["organization_name"] else ""
  }

  /** Access is granted iff the token's organization equals the requested one ignoring case. */
  function VerifyOrgAccess(requested: string, claims: Claims): (r: Result<Claims, Reply>)
    ensures r.Ok? <==> SameIgnoringCase(ClaimedOrg(claims), requested)
    ensures r.Ok? ==> r.value == claims
    ensures r.Err? ==> r.error == Refused(403, Forbidden)
  {
    if Lower(ClaimedOrg(claims)) != Lower(requested) then Err(Refused(403, Forbidden)) else Ok(claims)
  }

  /** A token for an organization opens every case spelling of its name, and no other name. */
  lemma AccessFollowsTokenOrg(claims: Claims, requested: string, other: string)
    requires "organization_name" in claims
    requires SameIgnoringCase(claims["organization_name"], requested)
    ensures VerifyOrgAccess(requested, claims).Ok?
    ensures VerifyOrgAccess(other, claims).Ok? <==> SameIgnoringCase(other, requested)
  {
  }

  /** A token without an organization claim opens no non-empty name. */
  lemma MissingClaimForbidden(claims: Claims, requested: string)
    requires "organization_name" !in claims && requested != ""
    ensures VerifyOrgAccess(requested, claims) == Err(Refused(403, Forbidden))
  {
    assert |Lower(requested)| > 0;
  }

  // ---------------------------------------------------------------------------------------
  // The four handlers
  // ---------------------------------------------------------------------------------------

  /** Lines 83-92: a service `ValueError` is the client's fault (400), anything else the server's (500). */
  function CreateReply(result: Result<OrgRecord, Error>): (r: Reply)
    ensures r.Done? <==> result.Ok?
    ensures result.Ok? ==> r == Done(201, CreatedMessage, Some(result.value))
    ensures r.status == 400 <==> result.Err? && IsValueError(result.error)
    ensures r.status == 500 <==> result.Err? && !IsValueError(result.error)
  {
    match result
    case Ok(org) => Done(201, CreatedMessage, Some(org))
    case Err(e) => Refused(if IsValueError(e) then 400 else 500, Service(e))
  }

  /**
    Lines 60-92: no authentication; the service outcome mapped by `CreateReply`. Every 400 is a
    refusal the service raised before its first write, so the store is left as it was.
   */
  function CreateRoute(s: State, name: Name, email: AsciiString, password: string,
                       adminId: string, now: Timestamp, f: Faults): (r: (Reply, State))
    ensures r.0.status in {201, 400, 500}
    ensures r.0.status == 400 ==> r.0.Refused? && r.0.cause.Service? && IsValueError(r.0.cause.error) && r.1 == s
    ensures FindOrganizationByName(s.master, name).Some? ==> r == (Refused(400, Service(AlreadyExists)), s)
    ensures r.0.status == 201 <==>
      && FindOrganizationByName(s.master, name).None?
      && ValidateCollectionName(Sanitize(name))
      && Sanitize(name) !in s.collections
      && !f.adminInsertFails && !f.orgInsertFails && f.createCollection == CreateOk
  {
    var step := OrgService.CreateOrganization(s, name, email, password, adminId, now, f);
    (CreateReply(step.result), step.state)
  }

  /** Lines 95-120: 200 with the record, 404 for a `ValueError`, 500 for anything else. */
  function GetRoute(s: State, name: Name): (r: Reply)
    ensures r.status == 200 <==> GetOrganization(s, name).Ok?
    ensures r.status == 200 ==> r == Done(200, "", Some(GetOrganization(s, name).value))
    ensures r.status == 404 <==> GetOrganization(s, name).Err?
  {
    match GetOrganization(s, name)
    case Ok(org) => Done(200, "", Some(org))
    case Err(e) => Refused(if IsValueError(e) then 404 else 500, Service(e))
  }

  /**
    The dependency and the first statement of the update and delete handlers (lines 126, 129,
    169 and 172): authenticate, then require the token's organization to be the requested one.
   */
  function Guard(header: Option<AsciiString>, verify: string -> Option<Claims>, name: Name): (r: Result<Claims, Reply>)
    ensures r.Ok? <==>
      GetCurrentAdmin(header, verify).Ok? && SameIgnoringCase(ClaimedOrg(GetCurrentAdmin(header, verify).value), name)
    ensures r.Err? ==> r.error.Refused? && r.error.status in {401, 403}
    ensures r.Err? && r.error.status == 403 ==> GetCurrentAdmin(header, verify).Ok?
  {
    match GetCurrentAdmin(header, verify)
    case Err(refusal) => Err(refusal)
    case Ok(claims) => VerifyOrgAccess(name, claims)
  }

  /**
    Lines 152-163 once access is granted: a `ValueError` (not found, or the new name taken)
    gives 400 and any other failure 500. The 403 of the guard is re-raised unchanged
    (lines 157-158), so it never turns into a 500.
   */
  function UpdateReply(result: Result<OrgRecord, Error>): (r: Reply)
    ensures r.Done? <==> result.Ok?
    ensures result.Ok? ==> r == Done(200, UpdatedMessage, Some(result.value))
    ensures r.status == 400 <==> result.Err? && IsValueError(result.error)
    ensures r.status == 500 <==> result.Err? && !IsValueError(result.error)
  {
    match result
    case Ok(org) => Done(200, UpdatedMessage, Some(org))
    case Err(e) => Refused(if IsValueError(e) then 400 else 500, Service(e))
  }

  /**
    Lines 123-163: the guard, then the service outcome mapped by `UpdateReply`. The guard runs
    before the service, so a 401 or 403 leaves the store exactly as it was and comes from nowhere
    else; a 400 (unknown organization, or a new name another organization holds) changes nothing.
   */
  function UpdateRoute(s: State, header: Option<AsciiString>, verify: string -> Option<Claims>,
                       name: Name, newName: Option<Name>, email: Option<AsciiString>,
                       password: Option<string>, f: Faults): (r: (Reply, State))
    ensures r.0.status in {200, 400, 401, 403, 500}
    ensures r.0.status in {401, 403} <==> Guard(header, verify, name).Err?
    ensures r.0.status in {400, 401, 403} ==> r.1 == s
  {
    match Guard(header, verify, name)
    case Err(refusal) => (refusal, s)
    case Ok(_) =>
      var step := OrgService.UpdateOrganization(s, name, newName, email, password, f);
      (UpdateReply(step.result), step.state)
  }

  /**
    Lines 174-196 once access is granted: a `ValueError` and a `False` from the service both
    give 404; success gives 200 with a message naming the organization as requested.
   */
  function DeleteReply(result: Result<bool, Error>, name: string): (r: Reply)
    ensures r.Done? <==> result == Ok(true)
    ensures r.Done? ==> r == Done(200, DeletedMessage(name), None)
    ensures r.status == 404 <==> result == Ok(false) || (result.Err? && IsValueError(result.error))
    ensures r.status == 500 <==> result.Err? && !IsValueError(result.error)
  {
    match result
    case Ok(deleted) => if deleted then Done(200, DeletedMessage(name), None) else Refused(404, NotDeleted)
    case Err(e) => Refused(if IsValueError(e) then 404 else 500, Service(e))
  }

  /**
    Lines 166-196: the guard, then the service outcome mapped by `DeleteReply`. A 401 or 403
    leaves the store as it was and comes only from the guard; an unknown organization is a 404
    that changes nothing.
   */
  function DeleteRoute(s: State, header: Option<AsciiString>, verify: string -> Option<Claims>,
                       name: Name, f: Faults): (r: (Reply, State))
    ensures r.0.status in {200, 401, 403, 404, 500}
    ensures r.0.status in {401, 403} <==> Guard(header, verify, name).Err?
    ensures r.0.status in {401, 403} ==> r.1 == s
    ensures Guard(header, verify, name).Ok? && FindOrganizationByName(s.master, name).None? ==>
      r == (Refused(404, Service(NotFound)), s)
  {
    match Guard(header, verify, name)
    case Err(refusal) => (refusal, s)
    case Ok(_) =>
      var step := OrgService.DeleteOrganization(s, name, f);
      (DeleteReply(step.result, name), step.state)
  }

  // ---------------------------------------------------------------------------------------
  // Properties across the handlers
  // ---------------------------------------------------------------------------------------

  /**
    With no database fault, creating an organization under a free name whose collection does not
    exist yet answers 201, and fetching it afterwards answers 200 with the same record.
   */
  lemma CreateRouteThenGet(s: State, name: Name, email: AsciiString, password: string,
                           adminId: string, now: Timestamp)
    requires FindOrganizationByName(s.master, name).None?
    requires Sanitize(name) !in s.collections
    ensures var r := CreateRoute(s, name, email, password, adminId, now, NoFaults);
      && r.0.status == 201 && r.0.org.Some?
      && GetRoute(r.1, name) == Done(200, "", r.0.org)
  {
    Lifecycle.CreateFreeNameThenGet(s, name, email, password, adminId, now, NoFaults);
  }

  /**
    Once access is granted, an unknown organization and a new name that another organization
    already holds (ignoring case) are both answered 400, and the store is left as it was.
   */
  lemma UpdateRouteRefusals(s: State, header: Option<AsciiString>, verify: string -> Option<Claims>,
                            name: Name, newName: Option<Name>, email: Option<AsciiString>,
                            password: Option<string>, f: Faults)
    requires Guard(header, verify, name).Ok?
    ensures OrgIndex(s.master.orgs, name).None? ==>
      UpdateRoute(s, header, verify, name, newName, email, password, f) == (Refused(400, Service(NotFound)), s)
    ensures
      (OrgIndex(s.master.orgs, name).Some? && Renames(name, newName) && OrgIndex(s.master.orgs, newName.value).Some?) ==>
      UpdateRoute(s, header, verify, name, newName, email, password, f) == (Refused(400, Service(AlreadyExists)), s)
  {
  }

  /** A valid token for another organization can neither update nor delete it. */
  lemma CrossTenantRefused(s: State, header: Option<AsciiString>, verify: string -> Option<Claims>,
                           name: Name, newName: Option<Name>, email: Option<AsciiString>,
                           password: Option<string>, f: Faults)
    requires GetCurrentAdmin(header, verify).Ok?
    requires !SameIgnoringCase(ClaimedOrg(GetCurrentAdmin(header, verify).value), name)
    ensures UpdateRoute(s, header, verify, name, newName, email, password, f) == (Refused(403, Forbidden), s)
    ensures DeleteRoute(s, header, verify, name, f) == (Refused(403, Forbidden), s)
  {
  }

  /** The service reports a found organization as deleted, so the `not deleted` 404 never happens. */
  lemma DeleteNeverReportsNotDeleted(s: State, header: Option<AsciiString>, verify: string -> Option<Claims>,
                                     name: Name, f: Faults)
    ensures DeleteRoute(s, header, verify, name, f).0 != Refused(404, NotDeleted)
  {
    match FindOrganizationByName(s.master, name)
    case None =>
    case Some(_) =>
      var m1 := DeleteAdminByOrg(s.master, name).1;
      assert m1.orgs == s.master.orgs;
  }

  /** Under the store invariant, once a delete answers 200 the organization answers 404 to `get`. */
  lemma DeletedThenGetIs404(s: State, header: Option<AsciiString>, verify: string -> Option<Claims>,
                            name: Name, f: Faults)
    requires Lifecycle.Inv(s)
    requires DeleteRoute(s, header, verify, name, f).0.status == 200
    ensures GetRoute(DeleteRoute(s, header, verify, name, f).1, name).status == 404
  {
    if OrgIndex(s.master.orgs, name).Some? {
      Lifecycle.DeleteThenNotFound(s, name, f, f);
    }
  }
}

=== FILE: org_service.dfy ===
/**
  The tenant lifecycle of `app/services/org_service.py`: create, get, update (rename with
  collection migration, email change, password change), delete and authenticate.

  Each operation is a function from the store (master records plus tenant collections) to a
  result and the new store. Database errors that the repositories swallow or that propagate as
  exceptions are chosen by a `Faults` oracle; fresh admin identifiers and the current time are
  parameters.
 */
module OrgService {
  import opened Wrappers
  import opened Text
  import opened Helpers
  import opened Passwords
  import opened MasterRepo
  import opened OrgRepo

  datatype State = State(master: Master, collections: Collections)

  /** The exceptions the service raises; the first four are `ValueError`s. */
  datatype Error =
    | AlreadyExists           // lines 18 and 95
    | InvalidCollectionName   // line 23
    | CollectionAlreadyExists // line 26
    | NotFound                // lines 71, 85 and 157
    | WriteFailed             // an insert into the master store raised
    | CollectionCreateFailed  // line 58
    | MigrationFailed         // line 108
    | OrgUpdateFailed         // line 132
    | AdminUpdateFailed       // line 140
    | RefreshFailed           // line 147

  predicate IsValueError(e: Error) {
    e.AlreadyExists? || e.InvalidCollectionName? || e.CollectionAlreadyExists? || e.NotFound?
  }

  /** The outcome of an operation together with the store it leaves behind. */
  datatype Step<T> = Step(result: Result<T, Error>, state: State)

  /** Which database calls fail on this run. */
  datatype Faults = Faults(
    adminInsertFails: bool,
    orgInsertFails: bool,
    createCollection: CreateFault,
    migrate: MigrateFault,
    dropFails: bool)

  const NoFaults := Faults(false, false, CreateOk, MigrateOk, false)

  /** Python truthiness of an optional string argument: present and non-empty. */
  predicate Given(o: Option<string>) {
    o.Some? && o.value != ""
  }

  // ---------------------------------------------------------------------------------------
  // create_organization, lines 15-64
  // ---------------------------------------------------------------------------------------

  /** The compensation of lines 56-57 and 62-63: remove the org named `name`, then its admin. */
  function Compensate(m: Master, name: Name): (r: Master)
    ensures |r.orgs| <= |m.orgs| && |r.admins| <= |m.admins|
  {
    var withoutOrg := MasterRepo.DeleteOrganization(m, name).1;
    MasterRepo.DeleteAdminByOrg(withoutOrg, name).1
  }

  /** The admin record written at line 51. */
  function NewAdmin(name: Name, email: AsciiString, password: string, adminId: string, now: Timestamp): AdminRecord {
    AdminRecord(adminId, Lower(email), HashPassword(password), name, now)
  }

  /** The organization record written at line 52. */
  function NewOrg(name: Name, collection: string, email: AsciiString, adminId: string, now: Timestamp): OrgRecord {
    OrgRecord(name, collection, AdminInfo(adminId, Lower(email)), now)
  }

  /**
    The writes of lines 50-64, once the checks have passed. An exception from either insert, or
    a failed collection creation, runs the compensation; the latter runs it twice, because the
    `RuntimeError` of line 58 is itself caught at line 61. The compensation removes records only:
    a collection that `create_collection` left behind while reporting failure stays.
   */
  function CreateWrites(s: State, name: Name, collection: string, email: AsciiString, password: string,
                        adminId: string, now: Timestamp, f: Faults): (r: Step<OrgRecord>)
    ensures r.result.Ok? <==> !f.adminInsertFails && !f.orgInsertFails && f.createCollection == CreateOk
    ensures r.result.Err? ==> !IsValueError(r.result.error)
    ensures r.result.Err? && (f.adminInsertFails || f.orgInsertFails || !f.createCollection.DeleteRaises?) ==>
      r.state.collections == s.collections
    ensures r.result.Err? && collection !in s.collections && r.state.collections != s.collections ==>
      r.state.collections == s.collections[collection := [f.createCollection.temp]]
    ensures r.result.Ok? ==>
      && r.result.value == NewOrg(name, collection, email, adminId, now)
      && r.state.master.orgs == s.master.orgs + [r.result.value]
      && r.state.master.admins == s.master.admins + [NewAdmin(name, email, password, adminId, now)]
      && (collection !in s.collections ==> r.state.collections == s.collections[collection := []])
  {
    if f.adminInsertFails then
      Step(Err(WriteFailed), s.(master := Compensate(s.master, name)))
    else
      var m1 := CreateAdmin(s.master, NewAdmin(name, email, password, adminId, now)).1;
      if f.orgInsertFails then
        Step(Err(WriteFailed), s.(master := Compensate(m1, name)))
      else
        var (stored, m2) := MasterRepo.CreateOrganization(m1, NewOrg(name, collection, email, adminId, now), now);
        var (created, cs) := CreateCollection(s.collections, collection, f.createCollection);
        if !created then
          assert f.createCollection.DeleteRaises? && collection !in s.collections ==>
            DocsOf(s.collections, collection) + [f.createCollection.temp] == [f.createCollection.temp];
          Step(Err(CollectionCreateFailed), State(Compensate(Compensate(m2, name), name), cs))
        else
          Step(Ok(stored), State(m2, cs))
  }

  /** `create_organization`: the three checks of lines 16-26, then the writes. */
  function CreateOrganization(s: State, name: Name, email: AsciiString, password: string,
                              adminId: string, now: Timestamp, f: Faults): (r: Step<OrgRecord>)
    ensures FindOrganizationByName(s.master, name).Some? ==> r == Step(Err(AlreadyExists), s)
    ensures FindOrganizationByName(s.master, name).None? && !ValidateCollectionName(Sanitize(name)) ==>
      r == Step(Err(InvalidCollectionName), s)
    ensures FindOrganizationByName(s.master, name).None? && ValidateCollectionName(Sanitize(name)) ==>
      CollectionExists(s.collections, Sanitize(name)) ==> r == Step(Err(CollectionAlreadyExists), s)
    ensures r.result.Err? ==> IsValueError(r.result.error) ==> r.state == s
    ensures r.result.Ok? <==>
      && FindOrganizationByName(s.master, name).None?
      && ValidateCollectionName(Sanitize(name))
      && Sanitize(name) !in s.collections
      && !f.adminInsertFails && !f.orgInsertFails && f.createCollection == CreateOk
    ensures r.result.Err? && r.state.collections != s.collections ==>
      && f.createCollection.DeleteRaises?
      && r.state.collections == s.collections[Sanitize(name) := [f.createCollection.temp]]
    ensures r.result.Ok? ==>
      && FindOrganizationByName(s.master, name).None?
      && Sanitize(name) !in s.collections
      && r.result.value == NewOrg(name, Sanitize(name), email, adminId, now)
      && r.state.master.orgs == s.master.orgs + [r.result.value]
      && r.state.master.admins == s.master.admins + [NewAdmin(name, email, password, adminId, now)]
      && r.state.collections == s.collections[Sanitize(name) := []]
  {
    if FindOrganizationByName(s.master, name).Some? then
      Step(Err(AlreadyExists), s)
    else
      var collection := Sanitize(name);
      if !ValidateCollectionName(collection) then
        Step(Err(InvalidCollectionName), s)
      else if CollectionExists(s.collections, collection) then
        Step(Err(CollectionAlreadyExists), s)
      else
        CreateWrites(s, name, collection, email, password, adminId, now, f)
  }

  // ---------------------------------------------------------------------------------------
  // get_organization, lines 67-72
  // ---------------------------------------------------------------------------------------

  function GetOrganization(s: State, name: Name): (r: Result<OrgRecord, Error>)
    ensures r.Err? <==> forall j | 0 <= j < |s.master.orgs| :: !SameIgnoringCase(s.master.orgs[j].name, name)
    ensures r.Err? ==> r.error == NotFound
    ensures r.Ok? ==> r.value in s.master.orgs && SameIgnoringCase(r.value.name, name)
  {
    match FindOrganizationByName(s.master, name)
    case None => Err(NotFound)
    case Some(org) => Ok(org)
  }

  // ---------------------------------------------------------------------------------------
  // update_organization, lines 75-149
  // ---------------------------------------------------------------------------------------

  /** The rename branch is taken only for a non-empty new name that differs ignoring case (line 91). */
  predicate Renames(name: Name, newName: Option<Name>) {
    Given(newName) && !SameIgnoringCase(newName.value, name)
  }

  /** The name the result is re-read under (line 143). */
  function FinalName(name: Name, newName: Option<Name>): Name {
    if Renames(name, newName) then newName.value else name
  }

  /** The collection a rename moves to (line 98); unused when there is no rename. */
  function NewCollection(name: Name, newName: Option<Name>): string {
    if Renames(name, newName) then Sanitize(newName.value) else ""
  }

  /** The organization fields set by lines 114-120; `target` is the sanitized new name. */
  function OrgPatchFor(name: Name, newName: Option<Name>, target: string, email: Option<AsciiString>): (p: OrgPatch)
    ensures IsEmptyOrgPatch(p) <==> !Renames(name, newName) && !Given(email)
  {
    OrgPatch(
      if Renames(name, newName) then Some(newName.value) else None,
      if Renames(name, newName) then Some(target) else None,
      if Given(email) then Some(Lower(email.value)) else None)
  }

  /** The admin fields set by lines 116, 121 and 125-126. */
  function AdminPatchFor(name: Name, newName: Option<Name>, email: Option<AsciiString>, password: Option<string>): (p: AdminPatch)
    ensures IsEmptyAdminPatch(p) <==> !Renames(name, newName) && !Given(email) && !Given(password)
  {
    AdminPatch(
      if Renames(name, newName) then Some(newName.value) else None,
      if Given(email) then Some(Lower(email.value)) else None,
      if Given(password) then Some(HashPassword(password.value)) else None)
  }

  /**
    Lines 98-111: migrate the documents to the new collection and, only when that reports
    success, drop the old one; a failed drop is ignored.
   */
  function MoveCollection(cs: Collections, from: string, to: string, f: Faults): (r: (bool, Collections))
    ensures r.0 == MigrateCollection(cs, from, to, f.migrate).0
    ensures !r.0 ==> r.1 == MigrateCollection(cs, from, to, f.migrate).1
  {
    var (migrated, afterMigration) := MigrateCollection(cs, from, to, f.migrate);
    if !migrated then (false, afterMigration)
    else (true, DropCollection(afterMigration, from, f.dropFails).1)
  }

  /** Lines 129-133: the organization after its `$set`, or `None` when no record matched. */
  function WriteOrg(m: Master, found: OrgRecord, name: Name, op: OrgPatch): (Option<OrgRecord>, Master) {
    if IsEmptyOrgPatch(op) then (Some(found), m) else MasterRepo.UpdateOrganization(m, name, op)
  }

  /** Lines 136-140: false when the admin update matched no record. */
  function WriteAdmin(m: Master, org: OrgRecord, ap: AdminPatch): (bool, Master) {
    if IsEmptyAdminPatch(ap) then (true, m)
    else
      var (updated, m') := UpdateAdmin(m, org.admin.adminId, ap);
      (updated.Some?, m')
  }

  /** Lines 143-147: re-read under the final name when the organization record was written. */
  function Refresh(m: Master, org: OrgRecord, name: Name, final: Name, orgWritten: bool): Option<OrgRecord> {
    if final != name || orgWritten then
      match OrgIndex(m.orgs, final)
      case None => None
      case Some(k) => Some(m.orgs[k])
    else Some(org)
  }

  /** Lines 128-149: write the patches, then re-read the organization when its record changed. */
  function UpdateRecords(s: State, found: OrgRecord, name: Name, newName: Option<Name>, target: string,
                         email: Option<AsciiString>, password: Option<string>): (r: Step<OrgRecord>)
    ensures r.state.collections == s.collections
    ensures |r.state.master.orgs| == |s.master.orgs| && |r.state.master.admins| == |s.master.admins|
    ensures r.result.Err? ==> r.result.error in {OrgUpdateFailed, AdminUpdateFailed, RefreshFailed}
  {
    var op := OrgPatchFor(name, newName, target, email);
    var ap := AdminPatchFor(name, newName, email, password);
    var (org, m1) := WriteOrg(s.master, found, name, op);
    if org.None? then
      Step(Err(OrgUpdateFailed), s)
    else
      var (adminWritten, m2) := WriteAdmin(m1, org.value, ap);
      if !adminWritten then
        Step(Err(AdminUpdateFailed), s.(master := m2))
      else
        match Refresh(m2, org.value, name, FinalName(name, newName), !IsEmptyOrgPatch(op))
        case None => Step(Err(RefreshFailed), s.(master := m2))
        case Some(refreshed) => Step(Ok(refreshed), s.(master := m2))
  }

  /** `update_organization`: a rename moves the data to the sanitized new name (line 98). */
  function UpdateOrganization(s: State, name: Name, newName: Option<Name>, email: Option<AsciiString>,
                              password: Option<string>, f: Faults): (r: Step<OrgRecord>)
    ensures OrgIndex(s.master.orgs, name).None? ==> r == Step(Err(NotFound), s)
    ensures r.result == Err(NotFound) <==> OrgIndex(s.master.orgs, name).None?
    ensures OrgIndex(s.master.orgs, name).Some? && Renames(name, newName) && OrgIndex(s.master.orgs, newName.value).Some? ==>
      r == Step(Err(AlreadyExists), s)
    ensures r.result == Err(AlreadyExists) <==>
      OrgIndex(s.master.orgs, name).Some? && Renames(name, newName) && OrgIndex(s.master.orgs, newName.value).Some?
    ensures r.result.Err? && IsValueError(r.result.error) ==> r.state == s
    ensures r.result.Err? && r.result.error == MigrationFailed ==> r.state.master == s.master
    ensures !Renames(name, newName) ==> r.state.collections == s.collections
    ensures |r.state.master.orgs| == |s.master.orgs| && |r.state.master.admins| == |s.master.admins|
  {
    UpdateInto(s, name, newName, NewCollection(name, newName), email, password, f)
  }

  /** `update_organization`, with the collection a rename moves to supplied as `target`. */
  function UpdateInto(s: State, name: Name, newName: Option<Name>, target: string, email: Option<AsciiString>,
                      password: Option<string>, f: Faults): (r: Step<OrgRecord>)
    ensures OrgIndex(s.master.orgs, name).None? ==> r == Step(Err(NotFound), s)
    ensures r.result == Err(NotFound) <==> OrgIndex(s.master.orgs, name).None?
    ensures OrgIndex(s.master.orgs, name).Some? && Renames(name, newName) && OrgIndex(s.master.orgs, newName.value).Some? ==>
      r == Step(Err(AlreadyExists), s)
    ensures r.result == Err(AlreadyExists) <==>
      OrgIndex(s.master.orgs, name).Some? && Renames(name, newName) && OrgIndex(s.master.orgs, newName.value).Some?
    ensures r.result.Err? && IsValueError(r.result.error) ==> r.state == s
    ensures r.result.Err? && r.result.error == MigrationFailed ==> r.state.master == s.master
    ensures !Renames(name, newName) ==> r.state.collections == s.collections
    ensures |r.state.master.orgs| == |s.master.orgs| && |r.state.master.admins| == |s.master.admins|
  {
    match OrgIndex(s.master.orgs, name)
    case None => Step(Err(NotFound), s)
    case Some(i) =>
      if Renames(name, newName) && OrgIndex(s.master.orgs, newName.value).Some? then
        Step(Err(AlreadyExists), s)
      else
        var org := s.master.orgs[i];
        var (moved, cs) :=
          if Renames(name, newName) then MoveCollection(s.collections, org.collection, target, f)
          else (true, s.collections);
        if !moved then Step(Err(MigrationFailed), s.(collections := cs))
        else UpdateRecords(s.(collections := cs), org, name, newName, target, email, password)
  }

  // ---------------------------------------------------------------------------------------
  // delete_organization, lines 152-170
  // ---------------------------------------------------------------------------------------

  /** Drops the collection (ignoring a failure), removes the admin, then the org; reports whether the org went. */
  function DeleteOrganization(s: State, name: Name, f: Faults): (r: Step<bool>)
    ensures FindOrganizationByName(s.master, name).None? ==> r == Step(Err(NotFound), s)
    ensures FindOrganizationByName(s.master, name).Some? ==>
      && r.result == Ok(true)
      && r.state.master.orgs == Seqs.RemoveAt(s.master.orgs, OrgIndex(s.master.orgs, name).value)
      && (f.dropFails || FindOrganizationByName(s.master, name).value.collection !in r.state.collections)
      && |r.state.master.admins| <= |s.master.admins|
  {
    match FindOrganizationByName(s.master, name)
    case None => Step(Err(NotFound), s)
    case Some(org) =>
      var cs := DropCollection(s.collections, org.collection, f.dropFails).1;
      var m1 := DeleteAdminByOrg(s.master, name).1;
      var (deleted, m2) := MasterRepo.DeleteOrganization(m1, name);
      Step(Ok(deleted), State(m2, cs))
  }

  // ---------------------------------------------------------------------------------------
  // authenticate_admin, lines 173-192
  // ---------------------------------------------------------------------------------------

  /** The dictionary of lines 187-192. */
  datatype Authenticated = Authenticated(adminId: string, email: string, orgName: Name, org: OrgRecord)

  /** An unknown email, a wrong password and a missing organization all give `None`. */
  function AuthenticateAdmin(s: State, email: AsciiString, password: string): (r: Option<Authenticated>)
    ensures r.None? <==>
      || FindAdminByEmail(s.master, email).None?
      || !VerifyPassword(password, FindAdminByEmail(s.master, email).value.password)
      || FindOrganizationByName(s.master, FindAdminByEmail(s.master, email).value.orgName).None?
    ensures r.Some? ==>
      var a := FindAdminByEmail(s.master, email).value;
      && a.email == Lower(email)
      && r.value.adminId == a.id && r.value.email == a.email && r.value.orgName == a.orgName
      && SameIgnoringCase(r.value.org.name, a.orgName)
      && r.value.org == FindOrganizationByName(s.master, a.orgName).value
  {
    match FindAdminByEmail(s.master, email)
    case None => None
    case Some(admin) =>
      if !VerifyPassword(password, admin.password) then None
      else
        match FindOrganizationByName(s.master, admin.orgName)
        case None => None
        case Some(org) => Some(Authenticated(admin.id, admin.email, admin.orgName, org))
  }
}

=== FILE: passwords.dfy ===
/**
  Password hashing, whose implementation is not part of this model. A hash is represented by an
  ideal value that verification compares against; the only property the service relies on is
  that `VerifyPassword(p, HashPassword(q))` holds exactly when `p == q`.
 */
module Passwords {

  datatype Hash = Hash(secret: string)

  function HashPassword(password: string): Hash {
    Hash(password)
  }

  function VerifyPassword(password: string, hash: Hash): bool {
    hash.secret == password
  }

  lemma VerifyHashed(p: string, q: string)
    ensures VerifyPassword(p, HashPassword(q)) <==> p == q
  {
  }
}

=== FILE: seqs.dfy ===
/**
  First-match search over a sequence, the shape of every `find_one`, `delete_one` and
  `find_one_and_update` call against the master store: documents are visited in store order
  and the first one satisfying the filter is the one returned, removed or updated.
 */
module Seqs {
  import opened Wrappers

  /** The position of the first element satisfying `p`, if any. */
  function FirstIndex<T>(s: seq<T>, p: T -> bool): (r: Option<nat>)
    ensures r.Some? ==> r.value < |s| && p(s[r.value])
    ensures r.Some? ==> forall j | 0 <= j < r.value :: !p(s[j])
    ensures r.None? <==> forall j | 0 <= j < |s| :: !p(s[j])
    decreases |s|
  {
    if |s| == 0 then None
    else if p(s[0]) then Some(0)
    else
      match FirstIndex(s[1..], p)
      case None => None
      case Some(k) => Some(k + 1)
  }

  /** `FirstIndex` is determined by its contract: the least position whose element satisfies `p`. */
  lemma FirstIndexIs<T>(s: seq<T>, p: T -> bool, k: nat)
    requires k < |s| && p(s[k])
    requires forall j | 0 <= j < k :: !p(s[j])
    ensures FirstIndex(s, p) == Some(k)
  {
  }

  /** `s` without its element at position `i`. */
  function RemoveAt<T>(s: seq<T>, i: nat): (r: seq<T>)
    requires i < |s|
    ensures |r| == |s| - 1
    ensures forall j | 0 <= j < i :: r[j] == s[j]
    ensures forall j | i <= j < |r| :: r[j] == s[j + 1]
  {
    s[..i] + s[i + 1..]
  }

  /** Two searches that test corresponding elements alike find the same position. */
  lemma FirstIndexAgree<T, U>(s: seq<T>, p: T -> bool, t: seq<U>, q: U -> bool)
    requires |s| == |t|
    requires forall j | 0 <= j < |s| :: p(s[j]) == q(t[j])
    ensures FirstIndex(s, p) == FirstIndex(t, q)
  {
    match FirstIndex(s, p)
    case None =>
    case Some(k) => FirstIndexIs(t, q, k);
  }
}

=== FILE: text.dfy ===
/**
  The few Python `str` operations the service relies on, restricted to ASCII text:
  `lower()`, `strip()` / `strip(chars)`, `startswith`, and `split()` with no argument.
 */
module Text {

  predicate IsAsciiChar(c: char) {
    c as int < 128
  }

  predicate IsAscii(s: string) {
    forall i | 0 <= i < |s| :: IsAsciiChar(s[i])
  }

  /** Text on which the ASCII versions of `lower`, `strip` and `split` agree with Python's. */
  type AsciiString = s: string | IsAscii(s) witness ""

  /** `str.lower()` on one ASCII character. */
  function LowerChar(c: char): char {
    if 'A' <= c <= 'Z' then (c as int + 32) as char else c
  }

  /** `str.lower()`. */
  function Lower(s: string): (r: string)
    ensures |r| == |s|
    ensures forall i {:trigger r[i]} | 0 <= i < |s| :: r[i] == LowerChar(s[i])
  {
    seq(|s|, i requires 0 <= i < |s| => LowerChar(s[i]))
  }

  /** Comparison ignoring letter case: `a.lower() == b.lower()`. */
  predicate SameIgnoringCase(a: string, b: string) {
    Lower(a) == Lower(b)
  }

  lemma LowerIdempotent(s: string)
    ensures Lower(Lower(s)) == Lower(s)
  {
  }

  lemma LowerKeepsAscii(s: string)
    requires IsAscii(s)
    ensures IsAscii(Lower(s))
  {
  }

  /** `str.isspace()` on one ASCII character: space, \t \n \v \f \r and the separators \x1c-\x1f. */
  predicate IsSpace(c: char) {
    var n := c as int;
    n == 32 || 9 <= n <= 13 || 28 <= n <= 31
  }

  /** `s.startswith(prefix)`. */
  predicate StartsWith(s: string, prefix: string) {
    |prefix| <= |s| && forall i | 0 <= i < |prefix| :: s[i] == prefix[i]
  }

  /** Drops the leading characters that satisfy `drop`. */
  function StripLeft(s: string, drop: char -> bool): (r: string)
    ensures |r| <= |s|
    ensures r == [] || !drop(r[0])
    decreases |s|
  {
    if |s| > 0 && drop(s[0]) then StripLeft(s[1..], drop) else s
  }

  /** What `StripLeft` removes is a prefix of dropped characters. */
  lemma {:induction false} StripLeftIsSuffix(s: string, drop: char -> bool)
    ensures var r := StripLeft(s, drop);
      && r == s[|s| - |r|..]
      && forall i | 0 <= i < |s| - |r| :: drop(s[i])
    decreases |s|
  {
    if |s| > 0 && drop(s[0]) {
      StripLeftIsSuffix(s[1..], drop);
      var r := StripLeft(s, drop);
      assert s[1..][|s| - 1 - |r|..] == s[|s| - |r|..];
      forall i | 0 <= i < |s| - |r|
        ensures drop(s[i])
      {
        if i > 0 {
          assert s[i] == s[1..][i - 1];
        }
      }
    }
  }

  /** Drops the trailing characters that satisfy `drop`. */
  function StripRight(s: string, drop: char -> bool): (r: string)
    ensures |r| <= |s|
    ensures r == [] || !drop(r[|r| - 1])
    decreases |s|
  {
    if |s| > 0 && drop(s[|s| - 1]) then StripRight(s[..|s| - 1], drop) else s
  }

  /** What `StripRight` removes is a suffix of dropped characters. */
  lemma {:induction false} StripRightIsPrefix(s: string, drop: char -> bool)
    ensures var r := StripRight(s, drop);
      && r == s[..|r|]
      && forall i | |r| <= i < |s| :: drop(s[i])
    decreases |s|
  {
    if |s| > 0 && drop(s[|s| - 1]) {
      StripRightIsPrefix(s[..|s| - 1], drop);
      var r := StripRight(s, drop);
      assert s[..|s| - 1][..|r|] == s[..|r|];
      forall i | |r| <= i < |s|
        ensures drop(s[i])
      {
        if i < |s| - 1 {
          assert s[i] == s[..|s| - 1][i];
        }
      }
    }
  }

  /** `str.strip()` (with `drop` = `IsSpace`) and `str.strip(chars)`. */
  function Strip(s: string, drop: char -> bool): (r: string)
    ensures r == [] || (!drop(r[0]) && !drop(r[|r| - 1]))
  {
    var l := StripLeft(s, drop);
    StripRightIsPrefix(l, drop);
    StripRight(l, drop)
  }

  /** The result of `Strip` is the slice `s[k..k + |r|]` and everything cut off satisfies `drop`. */
  lemma StripIsSlice(s: string, drop: char -> bool) returns (k: nat)
    ensures k + |Strip(s, drop)| <= |s|
    ensures Strip(s, drop) == s[k..k + |Strip(s, drop)|]
    ensures forall i | 0 <= i < k :: drop(s[i])
    ensures forall i | k + |Strip(s, drop)| <= i < |s| :: drop(s[i])
  {
    var l := StripLeft(s, drop);
    StripLeftIsSuffix(s, drop);
    StripRightIsPrefix(l, drop);
    k := |s| - |l|;
    var r := StripRight(l, drop);
    assert r == l[..|r|];
    assert l == s[k..];
    forall i | k + |r| <= i < |s|
      ensures drop(s[i])
    {
      assert s[i] == l[i - k];
    }
  }

  /** Stripping leaves text whose ends are already kept untouched. */
  lemma StripKeeps(s: string, drop: char -> bool)
    requires s == [] || (!drop(s[0]) && !drop(s[|s| - 1]))
    ensures Strip(s, drop) == s
  {
  }

  predicate NoSpace(s: string) {
    forall i | 0 <= i < |s| :: !IsSpace(s[i])
  }

  /** The longest prefix of `s` without whitespace. */
  function TakeWord(s: string): (w: string)
    ensures |w| <= |s| && w == s[..|w|]
    ensures NoSpace(w)
    ensures |w| < |s| ==> IsSpace(s[|w|])
    decreases |s|
  {
    if |s| == 0 || IsSpace(s[0]) then [] else [s[0]] + TakeWord(s[1..])
  }

  /** `str.split()` with no argument: the maximal runs of non-whitespace characters, in order. */
  function Words(s: string): (ws: seq<string>)
    ensures forall i | 0 <= i < |ws| :: |ws[i]| > 0 && NoSpace(ws[i])
    decreases |s|
  {
    var t := StripLeft(s, IsSpace);
    if t == [] then []
    else
      var w := TakeWord(t);
      assert 0 < |w| <= |t| <= |s|;
      var rest := Words(t[|w|..]);
      [w] + rest
  }

  lemma {:induction false} TakeWordOf(w: string, rest: string)
    requires NoSpace(w)
    requires rest == [] || IsSpace(rest[0])
    ensures TakeWord(w + rest) == w
    decreases |w|
  {
    if |w| == 0 {
      assert w + rest == rest;
    } else {
      assert (w + rest)[1..] == w[1..] + rest;
      TakeWordOf(w[1..], rest);
    }
  }

  /** Text made only of whitespace splits into no words. */
  lemma WordsOfBlank(s: string)
    requires forall i | 0 <= i < |s| :: IsSpace(s[i])
    ensures Words(s) == []
  {
    StripLeftIsSuffix(s, IsSpace);
    assert StripLeft(s, IsSpace) == [];
  }

  /** A leading whitespace character does not change the split. */
  lemma WordsSkipSpace(s: string)
    requires |s| > 0 && IsSpace(s[0])
    ensures Words(s) == Words(s[1..])
  {
  }

  /** A single run of non-whitespace characters is one word. */
  lemma WordsOfWord(w: string)
    requires |w| > 0 && NoSpace(w)
    ensures Words(w) == [w]
  {
    TakeWordOf(w, []);
    assert w + [] == w;
    assert w[|w|..] == [];
  }

  /** A word followed by whitespace (or nothing) is split off as the first word. */
  lemma WordsOfWordThen(w: string, rest: string)
    requires |w| > 0 && NoSpace(w)
    requires rest == [] || IsSpace(rest[0])
    ensures Words(w + rest) == [w] + Words(rest)
  {
    TakeWordOf(w, rest);
    assert (w + rest)[|w|..] == rest;
  }

  /**
    Splitting distributes over concatenation at a whitespace boundary. With `WordsOfBlank`,
    `WordsSkipSpace` and `WordsOfWord` this fixes `Words` on every text: each maximal run of
    non-whitespace characters becomes one word, in order, and whitespace yields nothing.
   */
  lemma {:induction false} WordsAppend(x: string, y: string)
    requires x == [] || y == [] || IsSpace(x[|x| - 1]) || IsSpace(y[0])
    ensures Words(x + y) == Words(x) + Words(y)
    decreases |x|, 1
  {
    if x == [] {
      assert x + y == y;
    } else if IsSpace(x[0]) {
      WordsAppendSpace(x, y);
    } else {
      WordsAppendWord(x, y);
    }
  }

  lemma {:induction false} WordsAppendSpace(x: string, y: string)
    requires |x| > 0 && IsSpace(x[0])
    requires y == [] || IsSpace(x[|x| - 1]) || IsSpace(y[0])
    ensures Words(x + y) == Words(x) + Words(y)
    decreases |x|, 0
  {
    var x' := x[1..];
    assert (x + y)[1..] == x' + y;
    WordsSkipSpace(x + y);
    WordsSkipSpace(x);
    assert x' == [] || x'[|x'| - 1] == x[|x| - 1];
    WordsAppend(x', y);
  }

  lemma {:induction false} WordsAppendWord(x: string, y: string)
    requires |x| > 0 && !IsSpace(x[0])
    requires y == [] || IsSpace(x[|x| - 1]) || IsSpace(y[0])
    ensures Words(x + y) == Words(x) + Words(y)
    decreases |x|, 0
  {
    var w := TakeWord(x);
    var tail := x[|w|..];
    assert x == w + tail;
    if tail != [] {
      assert tail[|tail| - 1] == x[|x| - 1];
      WordsAppend(tail, y);
    } else {
      assert tail + y == y;
    }
    WordThenAppend(w, tail, y);
  }

  /** The step of `WordsAppendWord`: a leading word splits off both sides of the equation. */
  lemma WordThenAppend(w: string, tail: string, y: string)
    requires |w| > 0 && NoSpace(w)
    requires tail == [] || IsSpace(tail[0])
    requires tail != [] || y == [] || IsSpace(y[0])
    requires Words(tail + y) == Words(tail) + Words(y)
    ensures Words(w + tail + y) == Words(w + tail) + Words(y)
  {
    var left, right := w + tail, tail + y;
    ConcatAssoc(w, tail, y);
    WordsOfWordThen(w, tail);
    WordsOfWordThen(w, right);
    ConcatAssoc([w], Words(tail), Words(y));
  }

  lemma ConcatAssoc<T>(a: seq<T>, b: seq<T>, c: seq<T>)
    ensures (a + b) + c == a + (b + c)
  {
  }

  /** `(a + " " + b).split() == [a, b]` for two non-empty words without whitespace. */
  lemma {:induction false} WordsOfPair(a: string, b: string)
    requires |a| > 0 && NoSpace(a)
    requires |b| > 0 && NoSpace(b)
    ensures Words(a + " " + b) == [a, b]
  {
    var s := a + " " + b;
    assert StripLeft(s, IsSpace) == s;
    TakeWordOf(a, " " + b);
    assert s == a + (" " + b);
    assert s[|a|..] == " " + b;
    var rest := " " + b;
    assert StripLeft(rest, IsSpace) == StripLeft(b, IsSpace);
    assert StripLeft(b, IsSpace) == b;
    TakeWordOf(b, []);
    assert b + [] == b;
    assert b[|b|..] == [];
    WordsOfBlank([]);
  }
}

=== FILE: wrappers.dfy ===
/** Optional values and results, standing in for Python's `None` returns and raised exceptions. */
module Wrappers {

  /** A value that may be absent (Python's `Optional[...]`). */
  datatype Option<+T> = None | Some(value: T)

  /** Either a value or the error the operation raised. */
  datatype Result<+T, +E> = Ok(value: T) | Err(error: E)
}
